=== FILE: README.md ===
# Asteroid threat service, modelled in Dafny

This project models the computational core of an asteroid-monitoring web
service. The service ranks near-Earth objects by miss distance and
estimates impact energy, effects and hazard tier. For a chosen impact site
it decides whether the site is at sea, how far it is from the coast and
what the local, coastal, volcanic, seismic and atmospheric hazards are.
It also proposes deflection strategies, picks a strategy by cost, and
scores risk with a "quantum-inspired" average of probability pairs.

Everything is modelled as values over `real`, `int`, `string`, `seq` and
`map`. The few step-by-step parts of the service are `method`s with loops,
each proved against a specification function:

- the weighted spectral-type draw;
- the nearest-coast search;
- the threat filter-and-sort;
- strategy gathering and sorting;
- the emergency-recommendation list;
- parameter validation;
- the earthquake feed mapping.

Things outside the program are parameters of the functions that need them:

- the great-circle distance `dist(lat1, lng1, lat2, lng2)`;
- fractional powers `pow`;
- the square root `sqrt`;
- the seeded random draw `draw(id, hi)`;
- the reverse-geocode reply;
- the earthquake feed reply;
- the clock.

Modules, one per source component:

| module | models |
|---|---|
| `Common` | `Option`, AU conversion, Python `int()` truncation, min/max |
| `Sorting` | Python's stable `list.sort(key=…, reverse=…)` as a stable insertion sort |
| `Physics` | `app/physics.py`, plus the inline mass/energy formula of the user-impact endpoint |
| `Loader` | the null-aware helpers of `scripts/load_to_db.py` |
| `Location` | `app/location_analyzer.py` |
| `Coast` | nearest-coast distance, coastal impact, inundation zones, the hand-written ocean-distance table |
| `SpectralTypes` | `app/AsteroidTypeClassifier.py` (its verbatim copy in `app/main.py` is the same code) |
| `Defense` | `AsteroidDefenseStrategies` in `app/main.py` |
| `Threats` | threat identification, impact sites, impact radius, energy class, risk score and recommendations |
| `Hazards` | volcanic, ash, tsunami, wave, quake, shaking, atmospheric, overall-risk and primary-hazard rules |
| `Response` | coastal infrastructure, damage estimate, evacuation zones, user risk assessment, mission feasibility |
| `Optimizer` | `app/quantum_optimizer.py` on its classical path |
| `QuantumRisk` | `app/quantum_analyzer.py` |
| `Seismic` | `app/usgs_analyzer.py` |

## Model

| member | source | states |
|---|---|---|
| Common.Trunc | app/main.py:683 | Python `int()` on a real: rounds toward zero, so it never moves away from zero and stays within one of its argument |
| Sorting.SortBy | app/main.py:465 | `list.sort(key=…)`: the result is a permutation of the input |
| Sorting.SortByDescending | app/main.py:316 | `list.sort(key=…, reverse=True)`: the result is a permutation of the input |
| Sorting.SortBySorted | app/main.py:465 | the sorted list is ordered by the key |
| Sorting.SortByKeepsSorted | app/main.py:465 | a list already ordered by the key is returned unchanged (stability) |
| Sorting.EqualKeysKeepOrder | app/main.py:315 | when all keys are equal, both the ascending and the `reverse=True` sort leave the list unchanged |
| Physics.Mass | app/physics.py:5-9 | sphere mass ρ·(4/3)·π·(d/2)³ is non-negative for non-negative inputs and zero exactly for a zero diameter |
| Physics.MassDefault | app/physics.py:5 | the default density is 2600, and a positive diameter gives a positive mass |
| Physics.MassScalesWithCube | app/physics.py:5-9 | doubling the diameter multiplies the mass by 8 |
| Physics.KineticEnergy | app/physics.py:12-23 | joules = ½·m·(1000·v)², megatons·4.184e15 = joules, hiroshima·0.015 = megatons, all non-negative for m ≥ 0 |
| Physics.EnergyLinearInMass | app/physics.py:14-15 | energy in joules and megatons is linear in the mass |
| Physics.EnergyMonotoneInVelocity | app/physics.py:14-15 | for m ≥ 0 the energy in every unit does not decrease with the speed |
| Physics.ImpactEffects | app/physics.py:26-38 | destruction radius = 10 × crater and area = π·radius², so area = 100·π·crater² |
| Physics.ZeroEnergyNoEffects | app/physics.py:26-38 | when 0 raised to the exponent is 0, zero energy gives all-zero effects |
| Physics.ClassifyHazard | app/physics.py:40-53 | first matching rule wins: EXTINCTION_LEVEL iff diameter ≥ 1000 and < 0.05 AU; CIVILIZATION_THREAT iff not that and diameter ≥ 300, < 0.1 AU, E > 1000; REGIONAL_DEVASTATION iff neither and diameter ≥ 140, < 0.05 AU; CITY_DESTROYER iff none of those and diameter ≥ 50, < 0.01 AU |
| Physics.ExtinctionIgnoresEnergy | app/physics.py:44-45 | a large close body is extinction-level whatever its energy |
| Physics.FarIsLowRisk | app/physics.py:42-53 | distance ≥ 0.1 AU always gives LOW_RISK |
| Physics.CivilizationNeedsEnergy | app/physics.py:46-47 | CIVILIZATION_THREAT needs energy > 1000, diameter ≥ 300 and a failed extinction rule |
| Physics.HazardExample | app/physics.py:44-45 | (1500 m, 1,000,000 km, 50,000 Mt) is EXTINCTION_LEVEL |
| Physics.UserMass | app/main.py:1556-1561 | a supplied mass is used as given; otherwise the sphere mass with π written as 3.14159 |
| Physics.UserEnergyMegatons | app/main.py:1562-1563 | the inline megaton formula equals the physics module's energy in megatons |
| Loader.ComputeAvg | scripts/load_to_db.py:12-13 | present exactly when both bounds are present, and then equidistant from both |
| Loader.AvgBetweenBounds | scripts/load_to_db.py:13 | dmin ≤ avg ≤ dmax when dmin ≤ dmax |
| Loader.MassFromDiameter | scripts/load_to_db.py:18-22 | absent exactly for a null diameter, otherwise the sphere mass |
| Loader.MassFromDiameterDefault | scripts/load_to_db.py:16-18 | the default density is 3000, and a positive diameter gives a positive mass |
| Loader.LoaderMassScalesWithCube | scripts/load_to_db.py:20-22 | doubling the diameter multiplies the mass by 8 |
| Loader.EnergyJoules | scripts/load_to_db.py:24-27 | absent exactly when mass or velocity is absent, otherwise ½·m·(1000·v)² |
| Loader.EnergyChainDefined | scripts/load_to_db.py:12-27 | the bounds → mass → energy chain is present exactly when both bounds and the velocity are |
| Location.IsOceanLocation | app/location_analyzer.py:12-23 | total, and true exactly when one of the three closed boxes contains the point |
| Location.PolarIsLand | app/location_analyzer.py:15-22 | latitude beyond ±60 is never ocean |
| Location.FarEastIsLand | app/location_analyzer.py:15-22 | longitude above 120 is never ocean |
| Location.OceanBand | app/location_analyzer.py:15-19 | every point with latitude in [-60, 60] and longitude in [-180, 20] is ocean |
| Location.AddressType | app/location_analyzer.py:41-51 | city/town → urban_high, else village/suburb → urban_medium, else country → rural, else unknown |
| Location.GetLocationType | app/location_analyzer.py:25-53 | "ocean" exactly for ocean points, decided before any lookup; a failed or non-200 reply gives "unknown"; a 200 reply for a land point gives the type its address fields name |
| Location.OceanIgnoresReply | app/location_analyzer.py:28-29 | the reverse-geocode reply is never consulted for an ocean point |
| Location.EstimateDeathToll | app/location_analyzer.py:55-88 | area = 3.14159·r²; ocean: population 0, factor 0.001, deaths int(E·10000) above 10 Mt, else 0; rural/urban_medium/urban_high: density 30/1000/10000 and factor 0.01/0.1/0.5, population int(area·density), deaths int(area·density·factor); unknown and unlisted types density 100, factor 0.05; deaths never exceed the population on land |
| Location.CalculateImpactRadius | app/location_analyzer.py:97-100 | max(1, 2·√E): at least 1 and at least 2·√E, and equal to one of them |
| Location.GetLocationDescription | app/location_analyzer.py:102-111 | the listed text, or the fixed default for an unlisted type |
| Location.GetPrimaryThreat | app/location_analyzer.py:113-122 | the listed text, or the fixed default for an unlisted type |
| Location.ProducedTypesAreListed | app/location_analyzer.py:25-122 | every type the analyzer produces has its own description and threat text |
| Location.AnalyzeImpact | app/location_analyzer.py:124-151 | the analysis carries the name, site and energy given; its type is the site's location type, its description and threat are that type's texts, its radius is max(1, 2·√E) and its toll the death-toll estimate for that type and radius; an ocean site has the tsunami threat and zero population |
| Coast.MinOverIsMinimum | app/main.py:998-1003 | the running minimum is at most every point's distance and equals one of them |
| Coast.CalculateDistanceToCoast | app/main.py:984-1005 | 0 on land; at sea the least distance to the 19 reference points, attained by one of them |
| Coast.CoastDistanceNonNegative | app/main.py:984-1005 | with a non-negative distance function the coast distance is non-negative |
| Coast.AssessCoastalImpact | app/main.py:1007-1050 | a report exactly at sea; warning time = max(10, int(d/8)); E > 100: CATASTROPHIC, "Multiple continents", 1000 km; 10 < E ≤ 100: SEVERE, "Regional", 500 km; 1 < E ≤ 10: MODERATE, "Local", 100 km; E ≤ 1: MINOR, "Very local", 50 km |
| Coast.EvacuationRadiusMonotone | app/main.py:1018-1040 | more energy never shrinks the evacuation radius |
| Coast.IdentifyInundationZones | app/main.py:1052-1106 | no zones on land; above 100 Mt the immediate (EXTREME) and outer high-risk (SEVERE) zones with 15000 km²; above 10 Mt the high-risk (SEVERE) zone with 5000 km²; otherwise the low-risk (MODERATE) zone with 1000 km² |
| Coast.InundationAreaMonotone | app/main.py:1060-1106 | the inundated area does not decrease with energy |
| Coast.RealOceanDistance | app/main.py:1108-1118 | 600 at (0, 0), 1200 at (-45, -170), 5 in the New York box, and 800 exactly elsewhere |
| SpectralTypes.WalkBuckets | app/AsteroidTypeClassifier.py:160-171 | the running-total loop over any weight table returns the first bucket whose total reaches the draw, "UNKNOWN" past the end |
| SpectralTypes.ClassifyById | app/AsteroidTypeClassifier.py:150-171 | one draw bounded by the total weight, then the walk: the code of the bucket holding the draw |
| SpectralTypes.SumSnoc | app/AsteroidTypeClassifier.py:163-164 | the running total after one more entry adds its weight |
| SpectralTypes.TotalIsHundred | app/AsteroidTypeClassifier.py:154-160 | the weights sum to 100 |
| SpectralTypes.PickCovers | app/AsteroidTypeClassifier.py:160-171 | a draw in [1, total] always lands in some bucket, never the fallback |
| SpectralTypes.PickBucket | app/AsteroidTypeClassifier.py:162-166 | a draw between the k-th and (k+1)-th prefix sum gives the k-th code |
| SpectralTypes.PrefixSums | app/AsteroidTypeClassifier.py:154-158 | the cumulative weights are 0, 45, 75, 80, 85, 88, 90, 92, 94, 96, 97, 98, 99, 100 |
| SpectralTypes.BucketTable | app/AsteroidTypeClassifier.py:154-168 | S for 1..45, C for 46..75, M for 76..80, … L for 100 |
| SpectralTypes.DrawNeverUnknown | app/AsteroidTypeClassifier.py:11-171 | every draw yields a weighted catalogue code, never UNKNOWN, F, G or U |
| SpectralTypes.GetTypeInfo | app/AsteroidTypeClassifier.py:173-175 | the catalogue entry, or the UNKNOWN entry for any other code |
| SpectralTypes.ClassifyAsteroid | app/AsteroidTypeClassifier.py:177-191 | the code is the draw's bucket and a catalogue code; the fields are copied from its entry; method "statistical", confidence "low" |
| Defense.EstimateTimeUntilImpact | app/main.py:349-360 | one of 0.1/1/5/10 years; 0.1 iff ≤ 0.01 AU; 1 iff in (0.01, 0.05] AU; 5 iff in (0.05, 0.1] AU; 10 iff > 0.1 AU |
| Defense.TimeMonotoneInDistance | app/main.py:349-360 | a farther pass never gives less time |
| Defense.RemoveChar | app/main.py:365 | `str.replace(c, "")` keeps exactly the other characters and never lengthens |
| Defense.MissionName | app/main.py:362-365 | the mission name starts with "SHIELD_" |
| Defense.RemoveCharsIsKeep | app/main.py:365 | the three replaces equal one filter dropping '(', ')' and ' ' |
| Defense.MissionNameIsFilter | app/main.py:362-365 | the name is "SHIELD_" + the filtered name, and its suffix holds no dropped character |
| Defense.KeepNameClean | app/main.py:365 | a name without those characters is kept as is |
| Defense.TechnologyLevelAsWritten | app/main.py:367-375 | exact-key lookup, "FUTURE" for any other text |
| Defense.TestedMethodRatedFuture | app/main.py:220 | as written, the kinetic impactor ("Tested (DART Mission)") is rated FUTURE |
| Defense.TechnologyLevel | app/main.py:367-375 | one of the four ratings, and the table's rating for any level its first word names |
| Defense.TechnologyLevelAgrees | app/main.py:367-375 | on single-word levels the corrected lookup equals the lookup as written |
| Defense.NamesLevelExact | app/main.py:367-375 | a level without a space names a table key only by being that key |
| Defense.TestedMethodRatedReady | app/main.py:220 | with the corrected lookup the kinetic impactor is READY |
| Defense.PriorityScore | app/main.py:340-342 | 1..5 from the LOW..EXTREME table, and 1 for any other level |
| Defense.Readiness | app/main.py:345 | each catalogue method's rating is the exact-key lookup of its development level, as the program calls it; FUTURE exactly for the kinetic impactor, nuclear deflection and paint/cover |
| Defense.CorrectedReadiness | app/main.py:367-375 | each catalogue method's rating under the corrected leading-word lookup |
| Defense.ReadinessDiffersOnlyOnKinetic | app/main.py:367-375 | the exact and the corrected rating differ for the kinetic impactor and for no other method |
| Defense.EnhanceStrategy | app/main.py:320-347 | copies the catalogue entry; success band by diameter; priority from the threat level (default LOW); mission name; cooperation iff diameter > 200; required technology level is the exact-key lookup of the entry's development level, FUTURE for the kinetic impactor |
| Defense.EligibleAtMostTwo | app/main.py:283-311 | Gravity Tractor is never eligible, Kinetic and Nuclear never together, so at most two methods |
| Defense.GatherStrategies | app/main.py:280-311 | the list holds the enhanced eligible methods in rule order |
| Defense.GetDefenseStrategies | app/main.py:272-318 | the result is every eligible method, enhanced, in rule order (sort and `[:3]` change nothing), at most two, never Gravity, never Kinetic with Nuclear |
| Threats.ToThreat | app/main.py:449-464 | copies the record's fields; CRITICAL and immediate exactly when ≤ 0.01 AU, else HIGH |
| Threats.CandidatesExactly | app/main.py:444-464 | the candidates are exactly the threats of the records within 0.05 AU |
| Threats.ValidateAndIdentifyThreats | app/main.py:435-466 | the kept records sorted by distance: ordered, a permutation of the candidates, and exactly the records within 0.05 AU |
| Threats.GenerateImpactSite | app/main.py:484-495 | the site is table entry `id % 7` |
| Threats.SitePeriodic | app/main.py:495 | ids seven apart share a site |
| Threats.SiteOceanOrLand | app/main.py:486-495 | the site is at sea exactly when `id % 7` is not 1 or 3 |
| Threats.SiteOceanDistance | app/main.py:1108-1118 | the hand-written ocean distance of each site |
| Threats.ImpactRadius | app/main.py:497-506 | 5/15/30/50 km; 5 iff E < 1, 15 iff 1 ≤ E < 10, 30 iff 10 ≤ E < 100, 50 iff E ≥ 100 |
| Threats.ImpactRadiusMonotone | app/main.py:497-506 | the radius does not decrease with energy |
| Threats.ClassifyImpactEnergy | app/main.py:508-521 | each of the six classes holds exactly on its half-open energy band |
| Threats.RiskScore | app/main.py:523-530 | at most 1 for a non-negative distance, at least 0 for non-negative inputs, 1 for a huge object at distance 0 |
| Threats.RiskScoreMonotoneInDistance | app/main.py:523-530 | a farther pass never raises the score |
| Threats.GenerateEmergencyRecommendations | app/main.py:532-557 | the four immediate or close-approach actions by distance, the energy and size notes, and standard monitoring exactly when nothing else applies |
| Hazards.NearbyActiveVolcanoes | app/main.py:563-593 | one active volcano counted exactly when Mount St. Helens lies within the radius |
| Hazards.NearbyMonotone | app/main.py:563-593 | a larger radius never counts fewer volcanoes |
| Hazards.AssessVolcanicTriggerRisk | app/main.py:595-622 | with an active volcano within 300 km: E > 1000 VERY_HIGH/40-60%, 500 < E ≤ 1000 HIGH/25-40%, 100 < E ≤ 500 MEDIUM/15-25%, 50 < E ≤ 100 LOW_MEDIUM/5-15%; LOW/<5% iff no volcano or E ≤ 50; "Monitor volcanic activity" iff a volcano is near, "No immediate concern" otherwise |
| Hazards.EstimateAshFall | app/main.py:624-640 | ash fall iff a volcano within 500 km; then radius 200, the mask warning, and risk HIGH iff E > 500, MEDIUM iff 100 < E ≤ 500, LOW iff E ≤ 100 |
| Hazards.TriggerRiskImpliesAshFall | app/main.py:595-640 | any trigger risk above LOW comes with expected ash fall |
| Hazards.CalculateTsunamiRisk | app/main.py:642-688 | land: no tsunami, NONE, no coast distance or arrival time, no warnings, no evacuation; sea: expected with warnings, coast distance d, arrival int(d/8), EXTREME iff E > 100, HIGH iff 10 < E ≤ 100, MEDIUM iff 1 < E ≤ 10, LOW iff E ≤ 1; evacuation iff at sea and (E > 10 or (E > 1 and d < 500)) |
| Hazards.LandHasNoTsunami | app/main.py:650-658 | at a land site the report does not depend on the energy |
| Hazards.ArrivalNonNegative | app/main.py:683 | the arrival time is never negative |
| Hazards.EstimateTsunamiWaveHeight | app/main.py:690-722 | no wave on land; at sea 50-100+ m Mega-tsunami above 1000 Mt, 10-50 Major above 100, 3-10 Moderate above 10, 1-3 Small above 1, 0.5-1 Very small waves otherwise; flooding expected iff E > 10 |
| Hazards.MajorWaveIsExtreme | app/main.py:642-722 | a major or mega wave always comes with an EXTREME tsunami risk |
| Hazards.EnergyBand | app/main.py:724-759 | the shared thresholds: band 0 iff E ≤ 10, 1 iff 10 < E ≤ 100, 2 iff 100 < E ≤ 1000, 3 iff E > 1000 |
| Hazards.EnergyBandMonotone | app/main.py:724-759 | the band does not decrease with energy |
| Hazards.CalculateImpactInducedQuakes | app/main.py:724-741 | magnitude range by energy band, 2-6 hours, aftershocks expected |
| Hazards.GroundShakingIntensity | app/main.py:748-759 | intensity range by the same energy band |
| Hazards.ShakingRadius | app/main.py:743-746 | min(500, 5·E) |
| Hazards.ShockwaveRadius | app/main.py:761-764 | 2·E |
| Hazards.HeatRadius | app/main.py:766-769 | 1.5·E |
| Hazards.RadiiOrdered | app/main.py:743-769 | for every E > 0 the heat radius lies inside the shockwave radius; up to 100 Mt the shaking radius is 2.5 times the shockwave radius, so it reaches farther |
| Hazards.EstimateDebrisCloud | app/main.py:771-786 | climate impact by energy band; fixed altitude and duration |
| Hazards.CalculateOverallRiskLevel | app/main.py:825-839 | EXTREME iff ≤ 0.01 AU and E > 10; VERY_HIGH iff in (0.01, 0.05] AU and E > 10; HIGH iff > 0.05 AU and E > 100; MEDIUM iff > 0.05 AU and 10 < E ≤ 100; LOW iff E ≤ 10 |
| Hazards.BaseRisk | app/main.py:1429-1439 | the score is 1..5: 5 iff ≤ 0.01 AU and E > 10; 4 iff in (0.01, 0.05] AU and E > 10; 3 iff > 0.05 AU and E > 100; 2 iff > 0.05 AU and 10 < E ≤ 100; 1 iff E ≤ 10 |
| Hazards.OverallLevelIsBaseRisk | app/main.py:825-839 | the old level is the name of the improved base score |
| Hazards.OverallRiskLevelImproved | app/main.py:1422-1448 | never MINIMAL; at sea with E > 1 and the coast under 1000 km, the level of min(5, base + 1); otherwise the level of the base score |
| Hazards.ImprovedAtMostOneAbove | app/main.py:825-1448 | the improved level equals the old one or is one step above it |
| Hazards.IdentifyPrimaryHazard | app/main.py:841-853 | TSUNAMI iff at sea and E > 10; SEISMIC iff on land and E > 100; the two remaining cases likewise |
| Hazards.TsunamiHazardAgrees | app/main.py:642-853 | a TSUNAMI primary hazard always has HIGH or EXTREME tsunami risk and evacuation |
| Response.DistanceFactor | app/main.py:1412 | max(0.1, 1 − d/5000): at least 0.1 and at least 1 − d/5000, equal to one of them, and at most 1 for d ≥ 0 |
| Response.EstimateInfrastructureDamage | app/main.py:1407-1420 | amount = E·1e6·factor; trillion iff > 1e12, million iff ≤ 1e9 |
| Response.DamageDecreasesWithDistance | app/main.py:1407-1413 | a farther coast never raises the damage |
| Response.DamageFloor | app/main.py:1412-1413 | beyond 4500 km the damage is a tenth of the base |
| Response.AssessCoastalInfrastructure | app/main.py:1380-1405 | coast distance from the coast search; LOW iff coast > 2000 km (no facilities), MEDIUM iff 1000 < d ≤ 2000 (the two remote facilities), HIGH iff ≤ 1000 km (the five near-coast facilities); damage is the damage estimate at that distance |
| Response.LandRatedHigh | app/main.py:1382-1395 | a land site counts as on the coast: HIGH with the full base damage |
| Response.EvacuationZonesImproved | app/main.py:1450-1496 | coastal zones exactly at sea, radius zones on land; for each of the two kinds, the zone texts of the > 100 Mt, (10, 100] Mt and ≤ 10 Mt tiers |
| Response.UserEmergencyResponse | app/main.py:1730-1755 | four actions for EXTREME/VERY_HIGH/HIGH, the two-line default for any other level |
| Response.WeightedScore | app/main.py:1695-1700 | 0.3·size + 0.2·speed + 0.5·energy lies in [0, 100] for non-negative inputs |
| Response.ScoreLevel | app/main.py:1706-1715 | EXTREME iff ≥ 80, VERY_HIGH iff in [60, 80), HIGH iff in [40, 60), MEDIUM iff in [20, 40), LOW iff < 20 |
| Response.UserRiskAssessment | app/main.py:1691-1728 | size, velocity and energy factors are min(100, 10·d), min(100, 1.5·v), min(100, E/10); the score is their 0.3/0.2/0.5 weighting, replaced by min(100, 1.2·weighted) exactly at sea above 10 Mt; score ≤ 100 (≥ 0 for non-negative inputs); location risk HIGH exactly when boosted; level and response follow the score |
| Response.OceanBoostRaises | app/main.py:1702-1704 | at sea above 10 Mt a score strictly between 0 and 100 comes out strictly higher than the weighted score |
| Response.OceanBoostExample | app/main.py:1691-1715 | 5 km, 20 km/s, 580 Mt at (0, −30): weighted 50, reported 60 and VERY_HIGH |
| Response.OceanNeverLowersScore | app/main.py:1702-1704 | the same asteroid never scores lower at sea than on land |
| Response.ScoreLevelMonotone | app/main.py:1706-1715 | a higher score never gets a lower level |
| Response.AssessMissionFeasibility | app/main.py:1757-1786 | the band of the diameter with its timeframe, cost and success texts: VERY_HIGH iff < 0.1 km, HIGH iff in [0.1, 0.5), MEDIUM iff in [0.5, 2.0), LOW iff ≥ 2.0 |
| Response.SizeBand | app/main.py:1757-1786 | band 0 iff diameter < 0.1 km, 1 iff in [0.1, 0.5), 2 iff in [0.5, 2.0), 3 iff ≥ 2.0 |
| Response.FeasibilityMonotone | app/main.py:1757-1786 | a larger object never makes a mission more feasible |
| Optimizer.MinIndex | app/quantum_optimizer.py:123 | `min(table, key=table.get)`: an entry of least cost, before which every cost is higher |
| Optimizer.MaxCost | app/quantum_optimizer.py:292 | the largest cost, attained by some entry |
| Optimizer.OneHot | app/quantum_optimizer.py:127 | a 1 at the chosen index and 0 elsewhere |
| Optimizer.CreateOptimizationProblem | app/quantum_optimizer.py:78-84 | parallel name and cost lists in table order, constraint "exactly_one_strategy" |
| Optimizer.SolveClassical | app/quantum_optimizer.py:121-136 | a least-cost strategy, its cost as optimal and selected value, and the one-hot vector at its index |
| Optimizer.ClassicalChoiceIsGravity | app/quantum_optimizer.py:40-45 | on this table the choice is Gravity at cost 2, solution [0, 0, 0, 1] |
| Optimizer.FirstMissing | app/quantum_optimizer.py:209-212 | none iff all required parameters are present, else the first absent one |
| Optimizer.ValidateParameters | app/quantum_optimizer.py:209-212 | the loop's error names the first missing parameter, and there is none when all are present |
| Optimizer.StrategyJustification | app/quantum_optimizer.py:250-279 | the listed text, or the default for an unknown name |
| Optimizer.JustificationsCoverTable | app/quantum_optimizer.py:265-279 | exactly the table's strategies have their own text |
| Optimizer.OptimizeDefenseStrategy | app/quantum_optimizer.py:194-248 | fallback iff a required parameter is missing; either way the classical least-cost strategy; the fallback justification and the error naming the first missing parameter |
| Optimizer.GetAvailableStrategies | app/quantum_optimizer.py:281-294 | the table, its size, and costs bounding every entry, the lowest being the chosen one's |
| Optimizer.AvailableSummaryValues | app/quantum_optimizer.py:288-294 | four strategies, lowest cost 2, highest 8 |
| QuantumRisk.EnergyState | app/quantum_analyzer.py:40-47 | the pair sums to 1; dangerous weight 0.8/0.5/0.2 by energy |
| QuantumRisk.DistanceState | app/quantum_analyzer.py:49-58 | the pair sums to 1; dangerous weight 0.9/0.6/0.1 by distance in AU |
| QuantumRisk.SizeState | app/quantum_analyzer.py:60-67 | the pair sums to 1; dangerous weight 0.7/0.4/0.2 by size |
| QuantumRisk.Entangle | app/quantum_analyzer.py:69-74 | min(1.2·mean, 1): at most 1 and at most 1.2·mean, and equal to one of them |
| QuantumRisk.RiskScore | app/quantum_analyzer.py:69-74 | always in [0.2, 0.96] on exact reals, so the cap never binds there (in doubles the ends may differ by one rounding step) |
| QuantumRisk.RiskScoreMonotone | app/quantum_analyzer.py:40-74 | non-decreasing in energy and size, non-increasing in distance |
| QuantumRisk.UncertaintyScore | app/quantum_analyzer.py:81 | (E/100)·(1e7/d) is non-negative for E ≥ 0 and d > 0 |
| QuantumRisk.UncertaintyLevel | app/quantum_analyzer.py:83-88 | high iff > 0.7, low iff ≤ 0.3 |
| QuantumRisk.UncertaintyGrowsAsDistanceShrinks | app/quantum_analyzer.py:81 | at fixed energy a nearer pass is never less uncertain |
| QuantumRisk.Interpretation | app/quantum_analyzer.py:90-97 | high-risk text iff > 0.7, safe text iff ≤ 0.4 |
| QuantumRisk.QuantumRiskCalculation | app/quantum_analyzer.py:15-38 | the error report (0.5, "error", "unknown") exactly when a field is missing or the distance is 0; otherwise the score, uncertainty and interpretation |
| QuantumRisk.TopScore | app/quantum_analyzer.py:40-74 | the most dangerous inputs give 0.96 and the high-risk text |
| Seismic.ToQuake | app/usgs_analyzer.py:30-42 | latitude = coords[1], longitude = coords[0], depth = coords[2]; magnitude, place and time copied; tsunami and significance copied when present and 0 when absent |
| Seismic.Taken | app/usgs_analyzer.py:29 | at most the first 20 features, in feed order |
| Seismic.GetEarthquakesNearLocation | app/usgs_analyzer.py:11-47 | one record per taken feature in order; [] on a failed request or any unreadable feature |
| Seismic.MaxMagnitude | app/usgs_analyzer.py:63 | the largest magnitude, attained by some quake |
| Seismic.SumAtMostCountTimesBound | app/usgs_analyzer.py:64 | the sum is at most count × any upper bound |
| Seismic.AverageAtMostBound | app/usgs_analyzer.py:63-64 | the average is at most any upper bound of the magnitudes |
| Seismic.AverageAtMostMax | app/usgs_analyzer.py:63-64 | the average never exceeds the maximum |
| Seismic.CountAfter | app/usgs_analyzer.py:66-67 | the recent count is at most the total, all iff every quake is recent, none iff none is |
| Seismic.CountAfterMonotone | app/usgs_analyzer.py:66-67 | an earlier cutoff never counts fewer quakes |
| Seismic.SeismicLevel | app/usgs_analyzer.py:69-76 | very_high iff max > 7 or recent > 15; high iff not very_high and (max > 6.5 or recent > 8); medium iff neither of those and (max > 5.5 or recent > 3); low iff max ≤ 5.5 and recent ≤ 3 |
| Seismic.SeismicLevelMonotone | app/usgs_analyzer.py:69-76 | a stronger or more recent history never lowers the level |
| Seismic.HazardDescription | app/usgs_analyzer.py:88-95 | the listed text, "Unknown" otherwise |
| Seismic.SeismicRecommendation | app/usgs_analyzer.py:97-104 | the listed text, "Needs additional assessment" otherwise |
| Seismic.CalculateSeismicRisk | app/usgs_analyzer.py:49-86 | empty list: low, count 0, max 0, confidence high and the stable-area message; otherwise count, max, average = sum/count, recent and level as above, with listed texts (never a default) |
| Seismic.ReportAverageAtMostMax | app/usgs_analyzer.py:78-82 | the reported average is at most the reported maximum |
| Seismic.StrongQuakeIsVeryHigh | app/usgs_analyzer.py:69-70 | any quake above magnitude 7 makes the area very_high |

## Left out

- Floating point: Python floats are modelled as exact reals. Every threshold, bound and equality is proved on exact values; evaluated in IEEE doubles, a result may differ by rounding (for instance the quantum risk score of the least dangerous inputs, 0.2 here, is 0.19999999999999998 in doubles), so a comparison at a threshold can come out the other way.
- QuantumRisk.RiskScore: the [0.2, 0.96] range holds on exact reals; in doubles the program yields 0.19999999999999998 and 0.9600000000000002 at the two ends.
- The HTTP layer (FastAPI routes, lifespan hook, CORS) and the per-endpoint response assembly. Only the helper functions the endpoints call are modelled.
- Storage (SQLite) and the CSV/bulk loaders. A table read becomes an input sequence of records.
- The network clients: NASA, Nominatim reverse geocoding and the USGS feed. Their outcomes are inputs (`Location.GeocodeReply`, `Seismic.FeedReply`).
- Qiskit/QAOA and its exception path. Only the classical branch of the optimizer is modelled.
- Optimizer.OptimizeDefenseStrategy: always returns a result. The source computes the execution time `datetime.now() + timedelta(days=time_to_impact - 1)` in both the main branch (app/quantum_optimizer.py:221) and the fallback (app/quantum_optimizer.py:237). For a `time_to_impact` whose date falls outside the years 1-9999, or that is NaN, that call raises, the fallback raises again, and the endpoint answers with an error (app/main.py:1223-1228). That raise is not modelled.
- The wall clock: the optimizer's execution timestamp is left out, and the seismic "now" is a parameter.
- The haversine trigonometry, fractional powers and square root. They are parameters; only the non-negativity of distances is assumed, where a lemma says so.
- Python's global random generator and its reseeding side effect. The draw is a parameter `draw(id, hi)` with 1 ≤ draw ≤ hi.
- `location_analyzer.generate_impact_site`, which draws uniformly at random; the endpoints use the table-based site of `app/main.py` instead.
- `round(…)` and f-string number formatting: distances, scores, money amounts, average magnitude and mission justifications. Properties are stated on the unrounded values.
- Threats.ValidateAndIdentifyThreats: sorts by the exact distance in AU. The source sorts by the distance rounded to six decimals, so records that agree to six places keep input order there but are ordered exactly here.
- Coast.CalculateDistanceToCoast: returns the unrounded minimum; the source rounds it to one decimal.
- Hazards.NearbyActiveVolcanoes: compares the unrounded distance with the radius; the source rounds it to one decimal first. The exception branch of that function (no volcano data) is not modelled.
- Hazards.CalculateTsunamiRisk: the free-text `reason` field, which interpolates a float, is not modelled.
- Hazards: the constant wildfire, landslide, infrastructure, nuclear-plant and evacuation-zone payloads are not modelled.
- Response.EvacuationZonesImproved: takes only the energy and the ocean flag; the coast distance the source computes there is never used.
- Response.EstimateInfrastructureDamage: returns the amount and its unit instead of the formatted string.
- Optimizer.StrategyJustification: each text stops before its first interpolated number (mass, velocity, time).
- QuantumRisk.QuantumRiskCalculation: the error report keeps only the fixed prefix of its interpretation, not the exception text.
- Seismic.GetEarthquakesNearLocation: a feature's magnitude, place and time are taken as present; only missing properties, short coordinate lists, a missing `features` key and a failed request are modelled as failures.
- The analysis endpoint that calls `analyze_impact` with one argument, and the user-impact record without a `name`, are not modelled; `Defense` takes `name` as a required field.

## Findings

| source | as written | input that shows it | evidently intended | confidence | as-written member | corrected member |
|---|---|---|---|---|---|---|
| app/main.py:367-375 | `_assess_technology_level` looks up the whole `development_level` text among the keys "Tested", "Experimental" and "Concept" | the kinetic impactor's level "Tested (DART Mission)" (app/main.py:220) is not a key, so this proven method is rated "FUTURE" | rate by the leading word of the level, so "Tested (DART Mission)" is "READY" | not executed | Defense.TestedMethodRatedFuture | Defense.TestedMethodRatedReady |

=== FILE: Coast.dfy ===
/** The coastal helpers of the service: distance from an ocean impact to the
    nearest of nineteen fixed coastal cities, the coastal-impact and
    inundation reports built on it, and the hand-written distance table.
    The great-circle distance is a parameter `dist(lat1, lng1, lat2, lng2)`;
    the trigonometry of the haversine formula is not modelled. */
module Coast {
  import opened Common
  import Location

  /** Distances the haversine formula can return: never negative. */
  ghost predicate IsDistance(dist: (real, real, real, real) -> real) {
    forall a, b, c, d :: dist(a, b, c, d) >= 0.0
  }

  /** The coastal reference points, in the order they are tried. */
  const CoastalPoints: seq<(real, real)> := [
    (40.7, -74.0), (34.0, -118.2), (25.8, -80.2), (47.6, -122.3),
    (-34.6, -58.4), (-23.5, -46.6), (-33.4, -70.7),
    (51.5, -0.1), (43.3, -8.4), (41.9, 12.5),
    (33.6, -7.6), (-33.9, 18.4),
    (35.7, 139.7), (22.3, 114.2), (1.3, 103.8),
    (-33.9, 151.2), (-37.8, 144.9), (-41.3, 174.8), (-43.5, 172.6)
  ]

  function DistTo(lat: real, lng: real, p: (real, real), dist: (real, real, real, real) -> real): real {
    dist(lat, lng, p.0, p.1)
  }

  /** The running minimum over the points, folded from the left. */
  function MinOver(pts: seq<(real, real)>, lat: real, lng: real, dist: (real, real, real, real) -> real): real
    requires |pts| > 0
  {
    if |pts| == 1 then DistTo(lat, lng, pts[0], dist)
    else MinReal(MinOver(pts[..|pts| - 1], lat, lng, dist), DistTo(lat, lng, pts[|pts| - 1], dist))
  }

  /** The fold is the minimum: no point is closer, and some point is that close. */
  lemma {:induction false} MinOverIsMinimum(pts: seq<(real, real)>, lat: real, lng: real, dist: (real, real, real, real) -> real)
    requires |pts| > 0
    ensures forall k :: 0 <= k < |pts| ==> MinOver(pts, lat, lng, dist) <= DistTo(lat, lng, pts[k], dist)
    ensures exists k :: 0 <= k < |pts| && MinOver(pts, lat, lng, dist) == DistTo(lat, lng, pts[k], dist)
  {
    if |pts| > 1 {
      var init := pts[..|pts| - 1];
      MinOverIsMinimum(init, lat, lng, dist);
      forall k | 0 <= k < |pts|
        ensures MinOver(pts, lat, lng, dist) <= DistTo(lat, lng, pts[k], dist)
      {
        if k < |pts| - 1 {
          assert pts[k] == init[k];
        }
      }
      var j :| 0 <= j < |init| && MinOver(init, lat, lng, dist) == DistTo(lat, lng, init[j], dist);
      if MinOver(pts, lat, lng, dist) == MinOver(init, lat, lng, dist) {
        assert pts[j] == init[j];
        assert MinOver(pts, lat, lng, dist) == DistTo(lat, lng, pts[j], dist);
      } else {
        assert MinOver(pts, lat, lng, dist) == DistTo(lat, lng, pts[|pts| - 1], dist);
      }
    } else {
      assert MinOver(pts, lat, lng, dist) == DistTo(lat, lng, pts[0], dist);
    }
  }

  /** Distance to the coast before rounding: 0 on land, otherwise the
      smallest distance to a reference point. */
  function CoastDistance(lat: real, lng: real, dist: (real, real, real, real) -> real): real {
    if Location.IsOceanLocation(lat, lng) then MinOver(CoastalPoints, lat, lng, dist) else 0.0
  }

  /** `calculate_distance_to_coast`: a loop keeping the smallest distance seen,
      starting from infinity (`None`). */
  method CalculateDistanceToCoast(lat: real, lng: real, dist: (real, real, real, real) -> real) returns (d: real)
    ensures d == CoastDistance(lat, lng, dist)
    ensures !Location.IsOceanLocation(lat, lng) ==> d == 0.0
    ensures Location.IsOceanLocation(lat, lng) ==>
      (forall k :: 0 <= k < |CoastalPoints| ==> d <= DistTo(lat, lng, CoastalPoints[k], dist))
      && (exists k :: 0 <= k < |CoastalPoints| && d == DistTo(lat, lng, CoastalPoints[k], dist))
  {
    if !Location.IsOceanLocation(lat, lng) {
      return 0.0;
    }
    var minDistance: Option<real> := None;
    for i := 0 to |CoastalPoints|
      invariant i == 0 ==> minDistance == None
      invariant i > 0 ==> minDistance == Some(MinOver(CoastalPoints[..i], lat, lng, dist))
    {
      var distance := dist(lat, lng, CoastalPoints[i].0, CoastalPoints[i].1);
      assert CoastalPoints[..i + 1][..i] == CoastalPoints[..i];
      minDistance := match minDistance
        case None => Some(distance)
        case Some(m) => Some(MinReal(m, distance));
    }
    assert CoastalPoints[..|CoastalPoints|] == CoastalPoints;
    MinOverIsMinimum(CoastalPoints, lat, lng, dist);
    d := minDistance.value;
  }

  /** With a non-negative distance function the coast distance is non-negative. */
  lemma CoastDistanceNonNegative(lat: real, lng: real, dist: (real, real, real, real) -> real)
    requires IsDistance(dist)
    ensures CoastDistance(lat, lng, dist) >= 0.0
  {
    if Location.IsOceanLocation(lat, lng) {
      MinOverIsMinimum(CoastalPoints, lat, lng, dist);
      var k :| 0 <= k < |CoastalPoints| && MinOver(CoastalPoints, lat, lng, dist) == DistTo(lat, lng, CoastalPoints[k], dist);
      assert dist(lat, lng, CoastalPoints[k].0, CoastalPoints[k].1) >= 0.0;
    }
  }

  datatype TsunamiWarning = TsunamiWarning(
    severity: string, affectedCoastlines: string, evacuationRadiusKm: int, warningTimeMinutes: int)

  /** The land variant stands for the fixed land report (no coastal impact,
      no warnings, coast distance 0). */
  datatype CoastalImpact =
    | LandImpact
    | OceanImpact(distanceToCoastKm: real, tsunami: TsunamiWarning)

  /** `assess_coastal_impact`: the severity cascade on energy, with a warning
      time of one minute per 8 km to the coast and never under ten minutes. */
  function AssessCoastalImpact(lat: real, lng: real, energyMt: real, dist: (real, real, real, real) -> real): (r: CoastalImpact)
    ensures r.OceanImpact? <==> Location.IsOceanLocation(lat, lng)
    ensures r.OceanImpact? ==> r.distanceToCoastKm == CoastDistance(lat, lng, dist)
    ensures r.OceanImpact? ==> r.tsunami.warningTimeMinutes >= 10
    ensures r.OceanImpact? ==> r.tsunami.warningTimeMinutes >= Trunc(r.distanceToCoastKm / 8.0)
    ensures r.OceanImpact? ==>
      r.tsunami.warningTimeMinutes == 10 || r.tsunami.warningTimeMinutes == Trunc(r.distanceToCoastKm / 8.0)
    ensures r.OceanImpact? ==> (r.tsunami.severity == "CATASTROPHIC" <==> energyMt > 100.0)
    ensures r.OceanImpact? ==> (r.tsunami.severity == "MINOR" <==> energyMt <= 1.0)
    ensures r.OceanImpact? && energyMt > 100.0 ==> (r.tsunami.severity == "CATASTROPHIC"
      && r.tsunami.affectedCoastlines == "Multiple continents" && r.tsunami.evacuationRadiusKm == 1000)
    ensures r.OceanImpact? && 10.0 < energyMt <= 100.0 ==> (r.tsunami.severity == "SEVERE"
      && r.tsunami.affectedCoastlines == "Regional" && r.tsunami.evacuationRadiusKm == 500)
    ensures r.OceanImpact? && 1.0 < energyMt <= 10.0 ==> (r.tsunami.severity == "MODERATE"
      && r.tsunami.affectedCoastlines == "Local" && r.tsunami.evacuationRadiusKm == 100)
    ensures r.OceanImpact? && energyMt <= 1.0 ==> (r.tsunami.severity == "MINOR"
      && r.tsunami.affectedCoastlines == "Very local" && r.tsunami.evacuationRadiusKm == 50)
  {
    if !Location.IsOceanLocation(lat, lng) then LandImpact
    else
      var d := CoastDistance(lat, lng, dist);
      var warning := MaxInt(10, Trunc(d / 8.0));
      var t :=
        if energyMt > 100.0 then TsunamiWarning("CATASTROPHIC", "Multiple continents", 1000, warning)
        else if energyMt > 10.0 then TsunamiWarning("SEVERE", "Regional", 500, warning)
        else if energyMt > 1.0 then TsunamiWarning("MODERATE", "Local", 100, warning)
        else TsunamiWarning("MINOR", "Very local", 50, warning);
      OceanImpact(d, t)
  }

  /** More energy never shrinks the evacuation radius. */
  lemma EvacuationRadiusMonotone(lat: real, lng: real, e1: real, e2: real, dist: (real, real, real, real) -> real)
    requires Location.IsOceanLocation(lat, lng) && e1 <= e2
    ensures AssessCoastalImpact(lat, lng, e1, dist).tsunami.evacuationRadiusKm
         <= AssessCoastalImpact(lat, lng, e2, dist).tsunami.evacuationRadiusKm
  {
  }

  datatype Zone = Zone(zoneType: string, distanceFromShoreKm: string, riskLevel: string, actions: string)

  /** The land variant stands for the fixed "NONE" report with no zones. */
  datatype Inundation =
    | NoInundation
    | Inundation(zones: seq<Zone>, totalAreaKm2: int)

  /** The zones of `identify_inundation_zones`, nearest the shore first. */
  const ImmediateZone := Zone("Immediate Destruction", "0-5", "EXTREME", "IMMEDIATE EVACUATION - Move to high ground >50m elevation")
  const OuterHighRiskZone := Zone("High Risk", "5-15", "SEVERE", "Evacuate within 1 hour")
  const HighRiskZone := Zone("High Risk", "0-3", "SEVERE", "IMMEDIATE EVACUATION required")
  const LowRiskZone := Zone("Low Risk", "0-2", "MODERATE", "Stay alert, move inland if warnings issued")

  /** `identify_inundation_zones`: land gives no zones; at sea the zones and
      the affected area grow with the energy. */
  function IdentifyInundationZones(lat: real, lng: real, energyMt: real): (r: Inundation)
    ensures r.NoInundation? <==> !Location.IsOceanLocation(lat, lng)
    ensures r.Inundation? && energyMt > 100.0 ==> r.zones == [ImmediateZone, OuterHighRiskZone] && r.totalAreaKm2 == 15000
    ensures r.Inundation? && 10.0 < energyMt <= 100.0 ==> r.zones == [HighRiskZone] && r.totalAreaKm2 == 5000
    ensures r.Inundation? && energyMt <= 10.0 ==> r.zones == [LowRiskZone] && r.totalAreaKm2 == 1000
    ensures r.Inundation? ==> |r.zones| >= 1 && (r.zones[0].riskLevel == "EXTREME" <==> energyMt > 100.0)
    ensures r.Inundation? ==> (r.zones[0].riskLevel == "MODERATE" <==> energyMt <= 10.0)
    ensures r.Inundation? && energyMt > 10.0 ==> r.zones[|r.zones| - 1].riskLevel == "SEVERE"
  {
    if !Location.IsOceanLocation(lat, lng) then NoInundation
    else if energyMt > 100.0 then Inundation([ImmediateZone, OuterHighRiskZone], 15000)
    else if energyMt > 10.0 then Inundation([HighRiskZone], 5000)
    else Inundation([LowRiskZone], 1000)
  }

  /** Inundated area does not decrease with energy. */
  lemma InundationAreaMonotone(lat: real, lng: real, e1: real, e2: real)
    requires Location.IsOceanLocation(lat, lng) && e1 <= e2
    ensures IdentifyInundationZones(lat, lng, e1).totalAreaKm2 <= IdentifyInundationZones(lat, lng, e2).totalAreaKm2
  {
  }

  /** `calculate_real_ocean_distance`: three hand-picked places, 800 km elsewhere. */
  function RealOceanDistance(lat: real, lng: real): (d: int)
    ensures d in {5, 600, 800, 1200}
    ensures lat == 0.0 && lng == 0.0 ==> d == 600
    ensures lat == -45.0 && lng == -170.0 ==> d == 1200
    ensures 40.0 <= lat <= 42.0 && -75.0 <= lng <= -73.0 ==> d == 5
    ensures d == 800 <==> !(lat == 0.0 && lng == 0.0) && !(lat == -45.0 && lng == -170.0)
                          && !(40.0 <= lat <= 42.0 && -75.0 <= lng <= -73.0)
  {
    if lat == 0.0 && lng == 0.0 then 600
    else if lat == -45.0 && lng == -170.0 then 1200
    else if 40.0 <= lat <= 42.0 && -75.0 <= lng <= -73.0 then 5
    else 800
  }
}

=== FILE: Common.dfy ===
/** Shared vocabulary: optional values, unit conversions and Python's
    numeric conversions, stated over unbounded reals and integers. */
module Common {

  datatype Option<+T> = None | Some(value: T)

  /** Kilometres in one astronomical unit, the divisor every distance
      cascade of the service uses. */
  const KmPerAu: real := 149597870.7

  /** numpy's `np.pi`, written as the decimal of the double it holds. */
  const Pi: real := 3.141592653589793

  /** The rounded value of pi the service writes out by hand in a few places. */
  const PiApprox: real := 3.14159

  /** A miss distance in kilometres, expressed in astronomical units. */
  function DistanceAu(km: real): (au: real)
    ensures au * KmPerAu == km
    ensures (au <= 0.05) == (km <= 0.05 * KmPerAu)
    ensures (au <= 0.01) == (km <= 0.01 * KmPerAu)
  {
    km / KmPerAu
  }

  /** Python's `int(x)` on a float: truncation toward zero. */
  function Trunc(x: real): (n: int)
    ensures x >= 0.0 ==> n as real <= x < n as real + 1.0
    ensures x < 0.0 ==> n as real - 1.0 < x <= n as real
  {
    if x >= 0.0 then x.Floor else -((-x).Floor)
  }

  /** Python's `min` and `max`, which the program applies both to floats and
      to ints (list cuts, list indices, minutes). Dafny keeps `real` and `int`
      apart and has no ordering shared by both, so each type has its own pair. */
  function MinReal(a: real, b: real): (m: real)
    ensures m <= a && m <= b && (m == a || m == b)
  {
    if a <= b then a else b
  }

  function MaxReal(a: real, b: real): (m: real)
    ensures m >= a && m >= b && (m == a || m == b)
  {
    if a >= b then a else b
  }

  function MaxInt(a: int, b: int): (m: int)
    ensures m >= a && m >= b && (m == a || m == b)
  {
    if a >= b then a else b
  }

  function MinInt(a: int, b: int): (m: int)
    ensures m <= a && m <= b && (m == a || m == b)
  {
    if a <= b then a else b
  }
}

=== FILE: Defense.dfy ===
/** `AsteroidDefenseStrategies`: the catalogue of deflection methods and the
    rule-gated selection of the methods suited to one asteroid. The class has
    no state of its own (its catalogue is a class constant), so it is a
    module here. */
module Defense {
  import opened Common
  import Sorting

  /** One catalogue entry, as the selector copies it into its result. */
  datatype DefenseMethod = DefenseMethod(
    name: string, description: string, effectiveness: string, developmentLevel: string,
    timeRequired: string, cost: string, bestFor: seq<string>)

  const KineticImpactor := DefenseMethod(
    "Kinetic Impactor", "Spacecraft impacts asteroid to change its velocity",
    "High for small to medium asteroids", "Tested (DART Mission)", "2-10 years", "Medium",
    ["S-type", "M-type", "Q-type"])
  const GravityTractor := DefenseMethod(
    "Gravity Tractor", "Spacecraft flies near asteroid, using gravity to slowly alter course",
    "Medium for all sizes", "Concept", "10-20 years", "High", ["All types"])
  const NuclearDeflection := DefenseMethod(
    "Nuclear Deflection", "Nuclear explosion near asteroid surface alters trajectory",
    "Very high for large asteroids", "Theoretical", "5-15 years", "Very high",
    ["C-type", "D-type", "P-type"])
  const LaserAblation := DefenseMethod(
    "Laser Ablation", "High-power lasers vaporize surface material, creating thrust",
    "Medium for small asteroids", "Experimental", "15-25 years", "Very high", ["S-type", "M-type"])
  const IonBeamShepherd := DefenseMethod(
    "Ion Beam Shepherd", "Ion thrusters directed at asteroid surface for gentle push",
    "Low to medium", "Concept", "20-30 years", "Extreme", ["Small asteroids"])
  const PaintOrCover := DefenseMethod(
    "Surface Albedo Modification", "Change asteroid's reflectivity to alter solar radiation pressure",
    "Very low", "Theoretical", "10-20 years", "Low", ["Small, rotating asteroids"])

  /** The keys of the catalogue. */
  datatype MethodKey = KineticImpactorKey | GravityTractorKey | NuclearDeflectionKey
                     | LaserAblationKey | IonBeamShepherdKey | PaintOrCoverKey

  /** The catalogue by key. Only the first four entries are ever selected. */
  function Catalogue(k: MethodKey): DefenseMethod {
    match k
    case KineticImpactorKey => KineticImpactor
    case GravityTractorKey => GravityTractor
    case NuclearDeflectionKey => NuclearDeflection
    case LaserAblationKey => LaserAblation
    case IonBeamShepherdKey => IonBeamShepherd
    case PaintOrCoverKey => PaintOrCover
  }

  /** The fields of the asteroid record the selector reads; a spectral type
      the record lacks is `None`. */
  datatype AsteroidData = AsteroidData(name: string, diameterAvg: real, missDistanceKm: real, spectralType: Option<string>)

  function OrElse(o: Option<string>, default: string): (s: string)
    ensures o.Some? ==> s == o.value
    ensures o.None? ==> s == default
  {
    if o.Some? then o.value else default
  }

  /** Years until a possible impact, by miss distance in AU. */
  function EstimateTimeUntilImpact(missDistanceKm: real): (years: real)
    ensures years == 0.1 || years == 1.0 || years == 5.0 || years == 10.0
    ensures years == 0.1 <==> DistanceAu(missDistanceKm) <= 0.01
    ensures years == 1.0 <==> 0.01 < DistanceAu(missDistanceKm) <= 0.05
    ensures years == 5.0 <==> 0.05 < DistanceAu(missDistanceKm) <= 0.1
    ensures years == 10.0 <==> DistanceAu(missDistanceKm) > 0.1
  {
    var au := DistanceAu(missDistanceKm);
    if au <= 0.01 then 0.1
    else if au <= 0.05 then 1.0
    else if au <= 0.1 then 5.0
    else 10.0
  }

  /** A closer pass never leaves more time. */
  lemma TimeMonotoneInDistance(d1: real, d2: real)
    requires d1 <= d2
    ensures EstimateTimeUntilImpact(d1) <= EstimateTimeUntilImpact(d2)
  {
  }

  /** `s.replace(c, '')`. */
  function RemoveChar(s: string, c: char): (r: string)
    ensures forall x :: x in r <==> x in s && x != c
    ensures |r| <= |s|
  {
    if s == [] then []
    else if s[0] == c then RemoveChar(s[1..], c)
    else [s[0]] + RemoveChar(s[1..], c)
  }

  predicate Dropped(x: char) {
    x == '(' || x == ')' || x == ' '
  }

  /** Reference definition: the characters of `s` that are not dropped, in order. */
  function KeepName(s: string): string {
    if s == [] then [] else (if Dropped(s[0]) then [] else [s[0]]) + KeepName(s[1..])
  }

  /** `_generate_mission_name`. */
  function MissionName(asteroidName: string): (m: string)
    ensures |m| >= 7 && m[..7] == "SHIELD_"
  {
    "SHIELD_" + RemoveChar(RemoveChar(RemoveChar(asteroidName, '('), ')'), ' ')
  }

  /** One pass that drops a character commutes with another that drops a second one. */
  lemma {:induction false} RemoveCharsIsKeep(s: string)
    ensures RemoveChar(RemoveChar(RemoveChar(s, '('), ')'), ' ') == KeepName(s)
  {
    if s != [] {
      RemoveCharsIsKeep(s[1..]);
    }
  }

  /** The mission name is the prefix followed by the name with every '(', ')'
      and ' ' removed and all other characters kept in order. */
  lemma MissionNameIsFilter(asteroidName: string)
    ensures MissionName(asteroidName) == "SHIELD_" + KeepName(asteroidName)
    ensures forall i :: 7 <= i < |MissionName(asteroidName)| ==> !Dropped(MissionName(asteroidName)[i])
  {
    RemoveCharsIsKeep(asteroidName);
    var m := MissionName(asteroidName);
    forall i | 7 <= i < |m| ensures !Dropped(m[i]) {
      assert m[i] in RemoveChar(RemoveChar(RemoveChar(asteroidName, '('), ')'), ' ');
    }
  }

  /** A name that already has none of the dropped characters is kept whole. */
  lemma {:induction false} KeepNameClean(s: string)
    requires forall i :: 0 <= i < |s| ==> !Dropped(s[i])
    ensures KeepName(s) == s
  {
    if s != [] {
      KeepNameClean(s[1..]);
    }
  }

  /** The readiness table of `_assess_technology_level`. */
  const TechnologyLevels: map<string, string> := map[
    "Tested" := "READY", "Experimental" := "NEAR_TERM", "Concept" := "MID_TERM", "Theoretical" := "FUTURE"]

  /** `_assess_technology_level` as written: an exact-key lookup, "FUTURE" otherwise. */
  function TechnologyLevelAsWritten(developmentLevel: string): (t: string)
    ensures developmentLevel in TechnologyLevels ==> t == TechnologyLevels[developmentLevel]
    ensures developmentLevel !in TechnologyLevels ==> t == "FUTURE"
  {
    if developmentLevel in TechnologyLevels then TechnologyLevels[developmentLevel] else "FUTURE"
  }

  /** The catalogue's only tested method is written "Tested (DART Mission)",
      which is no key of the table, so the exact lookup rates it "FUTURE". */
  lemma TestedMethodRatedFuture()
    ensures TechnologyLevelAsWritten(KineticImpactor.developmentLevel) == "FUTURE"
  {
    var level := "Tested (DART Mission)";
    assert KineticImpactor.developmentLevel == level;
    assert level != "Tested" && level != "Experimental" && level != "Concept" && level != "Theoretical";
  }

  /** `level` is the table key `key`, alone or followed by a space and a remark. */
  predicate NamesLevel(level: string, key: string) {
    key <= level && (|level| == |key| || level[|key|] == ' ')
  }

  /** The lookup by the level's leading word: the readiness of the table key
      the level begins with, "FUTURE" when it begins with none. */
  function TechnologyLevel(developmentLevel: string): (t: string)
    ensures t in {"READY", "NEAR_TERM", "MID_TERM", "FUTURE"}
    ensures forall k :: k in TechnologyLevels && NamesLevel(developmentLevel, k) ==> t == TechnologyLevels[k]
  {
    if NamesLevel(developmentLevel, "Tested") then "READY"
    else if NamesLevel(developmentLevel, "Experimental") then "NEAR_TERM"
    else if NamesLevel(developmentLevel, "Concept") then "MID_TERM"
    else "FUTURE"
  }

  /** The leading-word lookup agrees with the exact one on every level
      without a space. */
  lemma TechnologyLevelAgrees(developmentLevel: string)
    requires ' ' !in developmentLevel
    ensures TechnologyLevel(developmentLevel) == TechnologyLevelAsWritten(developmentLevel)
  {
    forall k | NamesLevel(developmentLevel, k) ensures developmentLevel == k {
      NamesLevelExact(developmentLevel, k);
    }
  }

  lemma NamesLevelExact(level: string, key: string)
    requires ' ' !in level && NamesLevel(level, key)
    ensures level == key
  {
    assert forall j :: 0 <= j < |level| ==> level[j] != ' ';
    assert |level| == |key|;
    assert level[..|key|] == key;
  }

  /** ...and rates the tested method "READY". */
  lemma TestedMethodRatedReady()
    ensures TechnologyLevel(KineticImpactor.developmentLevel) == "READY"
  {
    var level := "Tested (DART Mission)";
    assert KineticImpactor.developmentLevel == level;
    assert level[..6] == "Tested";
  }

  /** Threat levels and their priorities; any other level counts as 1. */
  const PriorityFactors: map<string, int> := map["LOW" := 1, "MEDIUM" := 2, "HIGH" := 3, "VERY_HIGH" := 4, "EXTREME" := 5]

  function PriorityScore(threatLevel: string): (p: int)
    ensures 1 <= p <= 5
    ensures threatLevel !in PriorityFactors ==> p == 1
    ensures threatLevel in PriorityFactors ==> p == PriorityFactors[threatLevel]
  {
    if threatLevel in PriorityFactors then PriorityFactors[threatLevel] else 1
  }

  /** The readiness `_assess_technology_level` gives each catalogue entry,
      one per key: the exact-key lookup the program calls. */
  function Readiness(k: MethodKey): (t: string)
    ensures t == TechnologyLevelAsWritten(Catalogue(k).developmentLevel)
    ensures t == "FUTURE" <==> k in {KineticImpactorKey, NuclearDeflectionKey, PaintOrCoverKey}
  {
    match k
    case KineticImpactorKey =>
      TestedMethodRatedFuture();
      "FUTURE"
    case GravityTractorKey =>
      assert Catalogue(k).developmentLevel == "Concept";
      "MID_TERM"
    case NuclearDeflectionKey =>
      assert Catalogue(k).developmentLevel == "Theoretical";
      "FUTURE"
    case LaserAblationKey =>
      assert Catalogue(k).developmentLevel == "Experimental";
      "NEAR_TERM"
    case IonBeamShepherdKey =>
      assert Catalogue(k).developmentLevel == "Concept";
      "MID_TERM"
    case PaintOrCoverKey =>
      assert Catalogue(k).developmentLevel == "Theoretical";
      "FUTURE"
  }

  /** The readiness the leading-word lookup `TechnologyLevel` gives each
      catalogue entry: what the exact lookup evidently means to give. */
  function CorrectedReadiness(k: MethodKey): (t: string)
    ensures t == TechnologyLevel(Catalogue(k).developmentLevel)
  {
    match k
    case KineticImpactorKey =>
      TestedMethodRatedReady();
      "READY"
    case GravityTractorKey =>
      assert Catalogue(k).developmentLevel == "Concept";
      "MID_TERM"
    case NuclearDeflectionKey =>
      assert Catalogue(k).developmentLevel == "Theoretical";
      "FUTURE"
    case LaserAblationKey =>
      assert Catalogue(k).developmentLevel == "Experimental";
      "NEAR_TERM"
    case IonBeamShepherdKey =>
      assert Catalogue(k).developmentLevel == "Concept";
      "MID_TERM"
    case PaintOrCoverKey =>
      assert Catalogue(k).developmentLevel == "Theoretical";
      "FUTURE"
  }

  /** The two lookups part only on the kinetic impactor, the one level that
      carries a remark after its leading word. */
  lemma ReadinessDiffersOnlyOnKinetic(k: MethodKey)
    ensures Readiness(k) != CorrectedReadiness(k) <==> k == KineticImpactorKey
  {
    if k == KineticImpactorKey {
      assert Readiness(k) == "FUTURE" && CorrectedReadiness(k) == "READY";
    }
  }

  /** The catalogue entry, by key, with the asteroid-specific fields added. */
  datatype Strategy = Strategy(
    key: MethodKey, method_: DefenseMethod, successProbability: string, priorityScore: int,
    recommendedMissionName: string, requiredTechnologyLevel: string, internationalCooperationRequired: bool)

  /** `_enhance_strategy`: every catalogue field is kept unchanged. */
  function EnhanceStrategy(k: MethodKey, a: AsteroidData, threatLevel: Option<string>): (s: Strategy)
    ensures s.key == k && s.method_ == Catalogue(k)
    ensures s.successProbability == "80-95%" <==> a.diameterAvg < 100.0
    ensures s.successProbability == "60-80%" <==> 100.0 <= a.diameterAvg < 500.0
    ensures s.successProbability == "30-60%" <==> a.diameterAvg >= 500.0
    ensures s.priorityScore == PriorityScore(OrElse(threatLevel, "LOW"))
    ensures threatLevel.None? ==> s.priorityScore == 1
    ensures s.recommendedMissionName == "SHIELD_" + KeepName(a.name)
    ensures s.internationalCooperationRequired <==> a.diameterAvg > 200.0
    ensures s.requiredTechnologyLevel == TechnologyLevelAsWritten(Catalogue(k).developmentLevel)
    ensures k == KineticImpactorKey ==> s.requiredTechnologyLevel == "FUTURE"
  {
    MissionNameIsFilter(a.name);
    var d := a.diameterAvg;
    var success := if d < 100.0 then "80-95%" else if d < 500.0 then "60-80%" else "30-60%";
    Strategy(k, Catalogue(k), success, PriorityScore(OrElse(threatLevel, "LOW")), MissionName(a.name),
             Readiness(k), d > 200.0)
  }

  predicate KineticRule(d: real, years: real) { d < 500.0 && years > 2.0 }
  predicate GravityRule(d: real, years: real) { d < 1000.0 && years > 10.0 }
  predicate NuclearRule(d: real, years: real, threat: string) {
    threat in ["HIGH", "VERY_HIGH", "EXTREME"] && years < 5.0 && d > 200.0
  }
  predicate LaserRule(d: real, spectral: string) { spectral in ["S-type", "M-type"] && d < 200.0 }

  /** The keys of the methods whose rule holds, in rule order. */
  function EligibleMethods(a: AsteroidData, threatLevel: Option<string>): seq<MethodKey> {
    var d := a.diameterAvg;
    var years := EstimateTimeUntilImpact(a.missDistanceKm);
    (if KineticRule(d, years) then [KineticImpactorKey] else [])
    + (if GravityRule(d, years) then [GravityTractorKey] else [])
    + (if NuclearRule(d, years, OrElse(threatLevel, "LOW")) then [NuclearDeflectionKey] else [])
    + (if LaserRule(d, OrElse(a.spectralType, "UNKNOWN")) then [LaserAblationKey] else [])
  }

  /** The gravity rule needs more than ten years and the estimate never
      exceeds ten; the kinetic rule needs more than two years and the nuclear
      rule fewer than five, which no estimate satisfies at once. So at most
      two methods are eligible. */
  lemma EligibleAtMostTwo(a: AsteroidData, threatLevel: Option<string>)
    ensures GravityTractorKey !in EligibleMethods(a, threatLevel)
    ensures !(KineticImpactorKey in EligibleMethods(a, threatLevel) && NuclearDeflectionKey in EligibleMethods(a, threatLevel))
    ensures |EligibleMethods(a, threatLevel)| <= 2
  {
  }

  /** The first half of `get_defense_strategies`: gate each of the four rules
      in order and append the enhanced entry of every rule that holds. */
  method GatherStrategies(a: AsteroidData, threatLevel: Option<string>) returns (strategies: seq<Strategy>)
    ensures |strategies| == |EligibleMethods(a, threatLevel)|
    ensures forall i :: 0 <= i < |strategies| ==> strategies[i] == EnhanceStrategy(EligibleMethods(a, threatLevel)[i], a, threatLevel)
  {
    var diameter := a.diameterAvg;
    var spectralType := OrElse(a.spectralType, "UNKNOWN");
    var threat := OrElse(threatLevel, "LOW");
    var years := EstimateTimeUntilImpact(a.missDistanceKm);
    ghost var keys: seq<MethodKey> := [];
    strategies := [];
    if KineticRule(diameter, years) {
      keys := keys + [KineticImpactorKey];
      strategies := strategies + [EnhanceStrategy(KineticImpactorKey, a, threatLevel)];
    }
    if GravityRule(diameter, years) {
      keys := keys + [GravityTractorKey];
      strategies := strategies + [EnhanceStrategy(GravityTractorKey, a, threatLevel)];
    }
    if NuclearRule(diameter, years, threat) {
      keys := keys + [NuclearDeflectionKey];
      strategies := strategies + [EnhanceStrategy(NuclearDeflectionKey, a, threatLevel)];
    }
    if LaserRule(diameter, spectralType) {
      keys := keys + [LaserAblationKey];
      strategies := strategies + [EnhanceStrategy(LaserAblationKey, a, threatLevel)];
    }
    assert keys == EligibleMethods(a, threatLevel);
  }

  /** `get_defense_strategies`: gather, sort by priority (highest first,
      stable), keep the first three. Every strategy shares the one priority of
      the threat level, so the sort keeps rule order, and at most two are
      eligible, so the cut drops nothing. */
  method GetDefenseStrategies(a: AsteroidData, threatLevel: Option<string>) returns (r: seq<Strategy>)
    ensures |r| == |EligibleMethods(a, threatLevel)| <= 2
    ensures forall i :: 0 <= i < |r| ==> r[i] == EnhanceStrategy(EligibleMethods(a, threatLevel)[i], a, threatLevel)
    ensures GravityTractorKey !in EligibleMethods(a, threatLevel)
    ensures !(KineticImpactorKey in EligibleMethods(a, threatLevel) && NuclearDeflectionKey in EligibleMethods(a, threatLevel))
  {
    var strategies := GatherStrategies(a, threatLevel);
    EligibleAtMostTwo(a, threatLevel);
    var key := (s: Strategy) => s.priorityScore as real;
    assert forall i :: 0 <= i < |strategies| ==> key(strategies[i]) == PriorityScore(OrElse(threatLevel, "LOW")) as real;
    Sorting.EqualKeysKeepOrder(strategies, key);
    strategies := Sorting.SortByDescending(strategies, key);
    r := strategies[..MinInt(3, |strategies|)];
  }
}

=== FILE: Hazards.dfy ===
/** The natural-hazard cascades of the service: volcanic trigger and ash
    fall, tsunami risk and wave height, induced quakes and ground shaking,
    the atmospheric radii and debris cloud, the overall risk level and the
    primary hazard. Each reads only the impact energy (megatons), the miss
    distance, and whether the site is at sea. */
module Hazards {
  import opened Common
  import Location
  import Coast

  /** The one volcano of the built-in list: Mount St. Helens, active. */
  const StHelens: (real, real) := (46.2, -122.2)

  /** Active volcanoes of the list within `radiusKm` of the site. */
  function NearbyActiveVolcanoes(lat: real, lng: real, radiusKm: real, dist: (real, real, real, real) -> real): (n: int)
    ensures n == 0 || n == 1
    ensures n == 1 <==> Coast.DistTo(lat, lng, StHelens, dist) <= radiusKm
  {
    if Coast.DistTo(lat, lng, StHelens, dist) <= radiusKm then 1 else 0
  }

  /** A volcano within a radius is within every larger radius. */
  lemma NearbyMonotone(lat: real, lng: real, r1: real, r2: real, dist: (real, real, real, real) -> real)
    requires r1 <= r2
    ensures NearbyActiveVolcanoes(lat, lng, r1, dist) <= NearbyActiveVolcanoes(lat, lng, r2, dist)
  {
  }

  datatype VolcanicRisk = VolcanicRisk(riskLevel: string, probability: string, activeVolcanoesNearby: int, recommendation: string)

  /** `assess_volcanic_trigger_risk`: energy bands, counted only with an active
      volcano within 300 km. */
  function AssessVolcanicTriggerRisk(lat: real, lng: real, energyMt: real, dist: (real, real, real, real) -> real): (r: VolcanicRisk)
    ensures r.activeVolcanoesNearby == NearbyActiveVolcanoes(lat, lng, 300.0, dist)
    ensures r.activeVolcanoesNearby == 0 ==> r.riskLevel == "LOW" && r.probability == "<5%"
    ensures r.riskLevel == "LOW" <==> r.activeVolcanoesNearby == 0 || energyMt <= 50.0
    ensures r.riskLevel == "VERY_HIGH" <==> r.activeVolcanoesNearby > 0 && energyMt > 1000.0
    ensures r.activeVolcanoesNearby > 0 && energyMt > 1000.0 ==> r.probability == "40-60%"
    ensures r.activeVolcanoesNearby > 0 && 500.0 < energyMt <= 1000.0 ==> r.riskLevel == "HIGH" && r.probability == "25-40%"
    ensures r.activeVolcanoesNearby > 0 && 100.0 < energyMt <= 500.0 ==> r.riskLevel == "MEDIUM" && r.probability == "15-25%"
    ensures r.activeVolcanoesNearby > 0 && 50.0 < energyMt <= 100.0 ==> r.riskLevel == "LOW_MEDIUM" && r.probability == "5-15%"
    ensures r.riskLevel == "LOW" ==> r.probability == "<5%"
    ensures r.recommendation == "Monitor volcanic activity" <==> r.activeVolcanoesNearby > 0
    ensures r.recommendation == "No immediate concern" <==> r.activeVolcanoesNearby == 0
  {
    var active := NearbyActiveVolcanoes(lat, lng, 300.0, dist);
    var (level, probability) :=
      if energyMt > 1000.0 && active > 0 then ("VERY_HIGH", "40-60%")
      else if energyMt > 500.0 && active > 0 then ("HIGH", "25-40%")
      else if energyMt > 100.0 && active > 0 then ("MEDIUM", "15-25%")
      else if energyMt > 50.0 && active > 0 then ("LOW_MEDIUM", "5-15%")
      else ("LOW", "<5%");
    VolcanicRisk(level, probability, active,
                 if active > 0 then "Monitor volcanic activity" else "No immediate concern")
  }

  /** The variant without ash stands for the fixed "no active volcanoes" report. */
  datatype AshFall = NoAshFall | AshFall(riskLevel: string, affectedRadiusKm: int, healthWarning: string)

  /** `estimate_ash_fall`: expected exactly when an active volcano lies within 500 km. */
  function EstimateAshFall(lat: real, lng: real, energyMt: real, dist: (real, real, real, real) -> real): (r: AshFall)
    ensures r.AshFall? <==> NearbyActiveVolcanoes(lat, lng, 500.0, dist) > 0
    ensures r.AshFall? ==> r.affectedRadiusKm == 200
    ensures r.AshFall? ==> (r.riskLevel == "HIGH" <==> energyMt > 500.0)
    ensures r.AshFall? ==> (r.riskLevel == "MEDIUM" <==> 100.0 < energyMt <= 500.0)
    ensures r.AshFall? ==> (r.riskLevel == "LOW" <==> energyMt <= 100.0)
    ensures r.AshFall? ==> r.healthWarning == "Wear masks outdoors"
  {
    if NearbyActiveVolcanoes(lat, lng, 500.0, dist) == 0 then NoAshFall
    else AshFall(if energyMt > 500.0 then "HIGH" else if energyMt > 100.0 then "MEDIUM" else "LOW",
                 200, "Wear masks outdoors")
  }

  /** Any volcanic trigger risk above "LOW" comes with an ash-fall warning. */
  lemma {:induction false} TriggerRiskImpliesAshFall(lat: real, lng: real, energyMt: real, dist: (real, real, real, real) -> real)
    requires AssessVolcanicTriggerRisk(lat, lng, energyMt, dist).riskLevel != "LOW"
    ensures EstimateAshFall(lat, lng, energyMt, dist).AshFall?
  {
    NearbyMonotone(lat, lng, 300.0, 500.0, dist);
  }

  /** `calculate_tsunami_risk`; the land report has no coast distance and no
      arrival time. */
  datatype TsunamiRisk = TsunamiRisk(
    tsunamiExpected: bool, riskLevel: string, distanceToCoastKm: Option<real>,
    coastalWarningsNeeded: bool, evacuationRecommended: bool, arrivalMinutes: Option<int>)

  function CalculateTsunamiRisk(lat: real, lng: real, energyMt: real, dist: (real, real, real, real) -> real): (r: TsunamiRisk)
    ensures !Location.IsOceanLocation(lat, lng) ==>
      (!r.tsunamiExpected && r.riskLevel == "NONE" && !r.coastalWarningsNeeded && !r.evacuationRecommended
       && r.distanceToCoastKm.None? && r.arrivalMinutes.None?)
    ensures Location.IsOceanLocation(lat, lng) ==>
      (r.tsunamiExpected && r.coastalWarningsNeeded
       && r.distanceToCoastKm == Some(Coast.CoastDistance(lat, lng, dist))
       && r.arrivalMinutes == Some(Trunc(Coast.CoastDistance(lat, lng, dist) / 8.0)))
    ensures r.tsunamiExpected ==> (r.riskLevel == "EXTREME" <==> energyMt > 100.0)
    ensures r.tsunamiExpected ==> (r.riskLevel == "HIGH" <==> 10.0 < energyMt <= 100.0)
    ensures r.tsunamiExpected ==> (r.riskLevel == "MEDIUM" <==> 1.0 < energyMt <= 10.0)
    ensures r.tsunamiExpected ==> (r.riskLevel == "LOW" <==> energyMt <= 1.0)
    ensures r.evacuationRecommended <==>
      (Location.IsOceanLocation(lat, lng)
       && (energyMt > 10.0 || (energyMt > 1.0 && Coast.CoastDistance(lat, lng, dist) < 500.0)))
  {
    if !Location.IsOceanLocation(lat, lng) then
      TsunamiRisk(false, "NONE", None, false, false, None)
    else
      var d := Coast.CoastDistance(lat, lng, dist);
      var (level, evacuation) :=
        if energyMt > 100.0 then ("EXTREME", true)
        else if energyMt > 10.0 then ("HIGH", true)
        else if energyMt > 1.0 then ("MEDIUM", d < 500.0)
        else ("LOW", false);
      TsunamiRisk(true, level, Some(d), true, evacuation, Some(Trunc(d / 8.0)))
  }

  /** A land site has no tsunami whatever the energy. */
  lemma LandHasNoTsunami(lat: real, lng: real, e1: real, e2: real, dist: (real, real, real, real) -> real)
    requires !Location.IsOceanLocation(lat, lng)
    ensures CalculateTsunamiRisk(lat, lng, e1, dist) == CalculateTsunamiRisk(lat, lng, e2, dist)
  {
  }

  /** With a non-negative great-circle distance the arrival time is never negative. */
  lemma ArrivalNonNegative(lat: real, lng: real, energyMt: real, dist: (real, real, real, real) -> real)
    requires Coast.IsDistance(dist) && Location.IsOceanLocation(lat, lng)
    ensures CalculateTsunamiRisk(lat, lng, energyMt, dist).arrivalMinutes.value >= 0
  {
    Coast.CoastDistanceNonNegative(lat, lng, dist);
  }

  /** The land variant stands for the fixed "No tsunami" report with a zero height. */
  datatype WaveHeight = NoWave | Wave(heightRangeM: string, classification: string, potentialImpact: string)

  /** `estimate_tsunami_wave_height`. */
  function EstimateTsunamiWaveHeight(lat: real, lng: real, energyMt: real): (w: WaveHeight)
    ensures w.NoWave? <==> !Location.IsOceanLocation(lat, lng)
    ensures w.Wave? && energyMt > 1000.0 ==> w.heightRangeM == "50-100+" && w.classification == "Mega-tsunami"
    ensures w.Wave? && 100.0 < energyMt <= 1000.0 ==> w.heightRangeM == "10-50" && w.classification == "Major tsunami"
    ensures w.Wave? && 10.0 < energyMt <= 100.0 ==> w.heightRangeM == "3-10" && w.classification == "Moderate tsunami"
    ensures w.Wave? && 1.0 < energyMt <= 10.0 ==> w.heightRangeM == "1-3" && w.classification == "Small tsunami"
    ensures w.Wave? && energyMt <= 1.0 ==> w.heightRangeM == "0.5-1" && w.classification == "Very small waves"
    ensures w.Wave? ==> (w.classification == "Mega-tsunami" <==> energyMt > 1000.0)
    ensures w.Wave? ==> (w.classification == "Very small waves" <==> energyMt <= 1.0)
    ensures w.Wave? ==> (w.potentialImpact == "Coastal flooding expected" <==> energyMt > 10.0)
  {
    if !Location.IsOceanLocation(lat, lng) then NoWave
    else
      var (height, classification) :=
        if energyMt > 1000.0 then ("50-100+", "Mega-tsunami")
        else if energyMt > 100.0 then ("10-50", "Major tsunami")
        else if energyMt > 10.0 then ("3-10", "Moderate tsunami")
        else if energyMt > 1.0 then ("1-3", "Small tsunami")
        else ("0.5-1", "Very small waves");
      Wave(height, classification, if energyMt > 10.0 then "Coastal flooding expected" else "Minimal impact")
  }

  /** Any wave of the "major" class or above is an "EXTREME" tsunami risk. */
  lemma MajorWaveIsExtreme(lat: real, lng: real, energyMt: real, dist: (real, real, real, real) -> real)
    requires EstimateTsunamiWaveHeight(lat, lng, energyMt).Wave?
    requires EstimateTsunamiWaveHeight(lat, lng, energyMt).classification in {"Mega-tsunami", "Major tsunami"}
    ensures CalculateTsunamiRisk(lat, lng, energyMt, dist).riskLevel == "EXTREME"
  {
  }

  /** The energy band shared by the quake, intensity and debris cascades:
      0 up to 10 Mt, 1 up to 100, 2 up to 1000, 3 beyond. */
  function EnergyBand(energyMt: real): (b: nat)
    ensures b <= 3
    ensures b == 0 <==> energyMt <= 10.0
    ensures b == 1 <==> 10.0 < energyMt <= 100.0
    ensures b == 2 <==> 100.0 < energyMt <= 1000.0
    ensures b == 3 <==> energyMt > 1000.0
  {
    if energyMt > 1000.0 then 3 else if energyMt > 100.0 then 2 else if energyMt > 10.0 then 1 else 0
  }

  lemma EnergyBandMonotone(e1: real, e2: real)
    requires e1 <= e2
    ensures EnergyBand(e1) <= EnergyBand(e2)
  {
  }

  datatype QuakeReport = QuakeReport(maxMagnitude: string, durationHours: string, aftershocksExpected: bool)

  const MagnitudeBands: seq<string> := ["4.0-5.0", "5.0-6.0", "6.0-7.0", "7.0-8.0"]

  /** `calculate_impact_induced_quakes`. */
  function CalculateImpactInducedQuakes(energyMt: real): (q: QuakeReport)
    ensures q.maxMagnitude == MagnitudeBands[EnergyBand(energyMt)]
    ensures q.durationHours == "2-6" && q.aftershocksExpected
  {
    var magnitude :=
      if energyMt > 1000.0 then "7.0-8.0"
      else if energyMt > 100.0 then "6.0-7.0"
      else if energyMt > 10.0 then "5.0-6.0"
      else "4.0-5.0";
    QuakeReport(magnitude, "2-6", true)
  }

  const IntensityBands: seq<string> := ["V-VI", "VI-VII", "VII-IX", "IX-X"]

  /** `calculate_ground_shaking_intensity`. */
  function GroundShakingIntensity(energyMt: real): (i: string)
    ensures i == IntensityBands[EnergyBand(energyMt)]
  {
    if energyMt > 1000.0 then "IX-X"
    else if energyMt > 100.0 then "VII-IX"
    else if energyMt > 10.0 then "VI-VII"
    else "V-VI"
  }

  /** `calculate_shaking_radius`: five kilometres per megaton, at most 500. */
  function ShakingRadius(energyMt: real): (km: real)
    ensures km <= 500.0
    ensures km <= 5.0 * energyMt
    ensures km == 500.0 || km == 5.0 * energyMt
  {
    MinReal(500.0, energyMt * 5.0)
  }

  /** `calculate_shockwave_radius`. */
  function ShockwaveRadius(energyMt: real): (km: real)
    ensures km == 2.0 * energyMt
  {
    energyMt * 2.0
  }

  /** `calculate_heat_radius`. */
  function HeatRadius(energyMt: real): (km: real)
    ensures km == 1.5 * energyMt
  {
    energyMt * 1.5
  }

  /** For a positive energy the heat radius lies inside the shockwave radius,
      and up to 100 Mt the shaking reaches two and a half times as far. */
  lemma RadiiOrdered(energyMt: real)
    requires energyMt > 0.0
    ensures HeatRadius(energyMt) < ShockwaveRadius(energyMt)
    ensures energyMt <= 100.0 ==> ShockwaveRadius(energyMt) < ShakingRadius(energyMt)
    ensures energyMt <= 100.0 ==> ShakingRadius(energyMt) == 2.5 * ShockwaveRadius(energyMt)
  {
  }

  datatype DebrisCloud = DebrisCloud(altitudeKm: string, climateImpact: string, duration: string)

  /** `estimate_debris_cloud`: only the climate impact depends on the energy. */
  function EstimateDebrisCloud(energyMt: real): (d: DebrisCloud)
    ensures d.climateImpact == "Global cooling for years" <==> EnergyBand(energyMt) == 3
    ensures d.climateImpact == "Regional climate effects" <==> EnergyBand(energyMt) == 2
    ensures d.climateImpact == "Localized effects only" <==> EnergyBand(energyMt) <= 1
    ensures d.altitudeKm == "20-50" && d.duration == "Months to years"
  {
    var climate :=
      if energyMt > 1000.0 then "Global cooling for years"
      else if energyMt > 100.0 then "Regional climate effects"
      else "Localized effects only";
    DebrisCloud("20-50", climate, "Months to years")
  }

  /** The level names, indexed by score. */
  const RiskLevels: seq<string> := ["MINIMAL", "LOW", "MEDIUM", "HIGH", "VERY_HIGH", "EXTREME"]

  /** `calculate_overall_risk_level` (the site is not consulted). */
  function CalculateOverallRiskLevel(energyMt: real, missDistanceKm: real): (level: string)
    ensures level in RiskLevels[1..]
    ensures level == "EXTREME" <==> DistanceAu(missDistanceKm) <= 0.01 && energyMt > 10.0
    ensures level == "VERY_HIGH" <==> 0.01 < DistanceAu(missDistanceKm) <= 0.05 && energyMt > 10.0
    ensures level == "HIGH" <==> DistanceAu(missDistanceKm) > 0.05 && energyMt > 100.0
    ensures level == "MEDIUM" <==> DistanceAu(missDistanceKm) > 0.05 && 10.0 < energyMt <= 100.0
    ensures level == "LOW" <==> energyMt <= 10.0
  {
    var au := DistanceAu(missDistanceKm);
    if au <= 0.01 && energyMt > 10.0 then "EXTREME"
    else if au <= 0.05 && energyMt > 10.0 then "VERY_HIGH"
    else if energyMt > 100.0 then "HIGH"
    else if energyMt > 10.0 then "MEDIUM"
    else "LOW"
  }

  /** The base score of the improved level, 1 (LOW) to 5 (EXTREME). */
  function BaseRisk(energyMt: real, missDistanceKm: real): (score: int)
    ensures 1 <= score <= 5
    ensures score == 5 <==> DistanceAu(missDistanceKm) <= 0.01 && energyMt > 10.0
    ensures score == 4 <==> 0.01 < DistanceAu(missDistanceKm) <= 0.05 && energyMt > 10.0
    ensures score == 3 <==> DistanceAu(missDistanceKm) > 0.05 && energyMt > 100.0
    ensures score == 2 <==> DistanceAu(missDistanceKm) > 0.05 && 10.0 < energyMt <= 100.0
    ensures score == 1 <==> energyMt <= 10.0
  {
    var au := DistanceAu(missDistanceKm);
    if au <= 0.01 && energyMt > 10.0 then 5
    else if au <= 0.05 && energyMt > 10.0 then 4
    else if energyMt > 100.0 then 3
    else if energyMt > 10.0 then 2
    else 1
  }

  /** The two cascades agree: the old level is the name of the base score. */
  lemma OverallLevelIsBaseRisk(energyMt: real, missDistanceKm: real)
    ensures CalculateOverallRiskLevel(energyMt, missDistanceKm) == RiskLevels[BaseRisk(energyMt, missDistanceKm)]
  {
  }

  /** `calculate_overall_risk_level_improved`: the base score, raised by one
      (capped at 5) for an ocean impact above 1 Mt less than 1000 km from the
      coast. */
  function OverallRiskLevelImproved(energyMt: real, missDistanceKm: real, lat: real, lng: real, dist: (real, real, real, real) -> real): (level: string)
    ensures level in RiskLevels[1..] && level != "MINIMAL"
    ensures var base := BaseRisk(energyMt, missDistanceKm);
      level == RiskLevels[base] || (base < 5 && level == RiskLevels[base + 1])
    ensures !(Location.IsOceanLocation(lat, lng) && energyMt > 1.0 && Coast.CoastDistance(lat, lng, dist) < 1000.0)
      ==> level == RiskLevels[BaseRisk(energyMt, missDistanceKm)]
    ensures Location.IsOceanLocation(lat, lng) && energyMt > 1.0 && Coast.CoastDistance(lat, lng, dist) < 1000.0
      ==> level == RiskLevels[MinInt(5, BaseRisk(energyMt, missDistanceKm) + 1)]
  {
    var base := BaseRisk(energyMt, missDistanceKm);
    var adjusted :=
      if Location.IsOceanLocation(lat, lng) && energyMt > 1.0 && Coast.CoastDistance(lat, lng, dist) < 1000.0
      then MinInt(5, base + 1) else base;
    RiskLevels[MinInt(adjusted, 5)]
  }

  /** The improved level is the old one, or one step above it. */
  lemma ImprovedAtMostOneAbove(energyMt: real, missDistanceKm: real, lat: real, lng: real, dist: (real, real, real, real) -> real)
    ensures var old_ := CalculateOverallRiskLevel(energyMt, missDistanceKm);
      var new_ := OverallRiskLevelImproved(energyMt, missDistanceKm, lat, lng, dist);
      new_ == old_ || (old_ != "EXTREME" && new_ == RiskLevels[BaseRisk(energyMt, missDistanceKm) + 1])
  {
    OverallLevelIsBaseRisk(energyMt, missDistanceKm);
  }

  /** `identify_primary_hazard`. */
  function IdentifyPrimaryHazard(lat: real, lng: real, energyMt: real): (h: string)
    ensures h == "TSUNAMI" <==> Location.IsOceanLocation(lat, lng) && energyMt > 10.0
    ensures h == "SEISMIC_HAZARDS" <==> !Location.IsOceanLocation(lat, lng) && energyMt > 100.0
    ensures h == "OCEAN_IMPACT" <==> Location.IsOceanLocation(lat, lng) && energyMt <= 10.0
    ensures h == "GROUND_IMPACT" <==> !Location.IsOceanLocation(lat, lng) && energyMt <= 100.0
  {
    var isOcean := Location.IsOceanLocation(lat, lng);
    if isOcean && energyMt > 10.0 then "TSUNAMI"
    else if energyMt > 100.0 then "SEISMIC_HAZARDS"
    else if isOcean then "OCEAN_IMPACT"
    else "GROUND_IMPACT"
  }

  /** Whenever the tsunami is the primary hazard, the tsunami report rates it
      "HIGH" or "EXTREME" and recommends evacuation. */
  lemma TsunamiHazardAgrees(lat: real, lng: real, energyMt: real, dist: (real, real, real, real) -> real)
    requires IdentifyPrimaryHazard(lat, lng, energyMt) == "TSUNAMI"
    ensures CalculateTsunamiRisk(lat, lng, energyMt, dist).riskLevel in {"HIGH", "EXTREME"}
    ensures CalculateTsunamiRisk(lat, lng, energyMt, dist).evacuationRecommended
  {
  }
}

=== FILE: Loader.dfy ===
/** The null-aware helpers of the bulk loader: average diameter, mass and
    energy, each absent when an input it needs is absent (a missing cell or
    NaN in the table is `None`). */
module Loader {
  import opened Common
  import Physics

  /** The loader's default bulk density (kg/m^3). */
  const LoaderDensity: real := 3000.0

  /** Mean of the two diameter bounds, present only when both are. */
  function ComputeAvg(dmin: Option<real>, dmax: Option<real>): (avg: Option<real>)
    ensures avg.Some? <==> dmin.Some? && dmax.Some?
    ensures avg.Some? ==> avg.value - dmin.value == dmax.value - avg.value
  {
    if dmin.Some? && dmax.Some? then Some((dmin.value + dmax.value) / 2.0) else None
  }

  /** The average lies between the bounds whenever they are ordered. */
  lemma AvgBetweenBounds(dmin: real, dmax: real)
    requires dmin <= dmax
    ensures ComputeAvg(Some(dmin), Some(dmax)).Some?
    ensures dmin <= ComputeAvg(Some(dmin), Some(dmax)).value <= dmax
  {
  }

  /** Mass of a sphere of the given diameter, absent for a missing diameter. */
  function MassFromDiameter(diameterM: Option<real>, density: real): (m: Option<real>)
    ensures m.Some? <==> diameterM.Some?
    ensures m.Some? ==> m.value == Physics.Mass(diameterM.value, density)
  {
    match diameterM
    case None => None
    case Some(d) =>
      var r := d / 2.0;
      var volume := (4.0 / 3.0) * Pi * (r * r * r);
      Some(density * volume)
  }

  /** `mass_from_diameter` with the loader's default density. */
  function MassFromDiameterDefault(diameterM: Option<real>): (m: Option<real>)
    ensures m == MassFromDiameter(diameterM, LoaderDensity)
    ensures diameterM.Some? && diameterM.value > 0.0 ==> m.Some? && m.value > 0.0
  {
    MassFromDiameter(diameterM, LoaderDensity)
  }

  /** Doubling the diameter multiplies the loader's mass by eight. */
  lemma LoaderMassScalesWithCube(d: real, density: real)
    ensures MassFromDiameter(Some(2.0 * d), density).Some?
    ensures MassFromDiameter(Some(2.0 * d), density).value == 8.0 * MassFromDiameter(Some(d), density).value
  {
    Physics.MassScalesWithCube(d, density);
  }

  /** Kinetic energy in joules, absent when the mass or the speed is absent. */
  function EnergyJoules(massKg: Option<real>, velocityKmS: Option<real>): (e: Option<real>)
    ensures e.Some? <==> massKg.Some? && velocityKmS.Some?
    ensures e.Some? ==> e.value == Physics.KineticEnergy(massKg.value, velocityKmS.value).joules
  {
    if massKg.None? || velocityKmS.None? then None
    else
      var v := velocityKmS.value * 1000.0;
      Some(0.5 * massKg.value * (v * v))
  }

  /** The loader's chain from both diameter bounds to an energy: absent as
      soon as one input is absent. */
  lemma EnergyChainDefined(dmin: Option<real>, dmax: Option<real>, v: Option<real>)
    ensures EnergyJoules(MassFromDiameterDefault(ComputeAvg(dmin, dmax)), v).Some?
        <==> dmin.Some? && dmax.Some? && v.Some?
  {
  }
}

=== FILE: Location.dfy ===
/** `LocationAnalyzer`: the ocean geofence, the mapping of a reverse-geocode
    reply to a location type, the death-toll estimate and the per-type text
    tables. The reverse-geocode request itself is outside the model: its
    outcome is an input. */
module Location {
  import opened Common

  /** A closed latitude/longitude rectangle. */
  datatype Box = Box(latMin: real, latMax: real, lngMin: real, lngMax: real)

  predicate InBox(b: Box, lat: real, lng: real) {
    b.latMin <= lat <= b.latMax && b.lngMin <= lng <= b.lngMax
  }

  /** The Pacific, Atlantic and Indian boxes, in the order they are tried. */
  const OceanBoxes: seq<Box> := [
    Box(-60.0, 60.0, -180.0, -60.0),
    Box(-60.0, 60.0, -60.0, 20.0),
    Box(-60.0, 30.0, 20.0, 120.0)
  ]

  /** Total: a point is ocean exactly when some box contains it. */
  function IsOceanLocation(lat: real, lng: real): (ocean: bool)
    ensures ocean <==> exists i :: 0 <= i < |OceanBoxes| && InBox(OceanBoxes[i], lat, lng)
  {
    if -60.0 <= lat <= 60.0 && -180.0 <= lng <= -60.0 then
      assert InBox(OceanBoxes[0], lat, lng); true
    else if -60.0 <= lat <= 60.0 && -60.0 <= lng <= 20.0 then
      assert InBox(OceanBoxes[1], lat, lng); true
    else if -60.0 <= lat <= 30.0 && 20.0 <= lng <= 120.0 then
      assert InBox(OceanBoxes[2], lat, lng); true
    else false
  }

  /** No box reaches beyond 60 degrees of latitude. */
  lemma PolarIsLand(lat: real, lng: real)
    requires lat > 60.0 || lat < -60.0
    ensures !IsOceanLocation(lat, lng)
  {
  }

  /** No box reaches east of 120 degrees of longitude. */
  lemma FarEastIsLand(lat: real, lng: real)
    requires lng > 120.0
    ensures !IsOceanLocation(lat, lng)
  {
  }

  /** The boxes cover every longitude from -180 to 20 in the band [-60, 60],
      and from 20 to 120 in the band [-60, 30]. */
  lemma OceanBand(lat: real, lng: real)
    requires -60.0 <= lat <= 60.0 && -180.0 <= lng <= 20.0
    ensures IsOceanLocation(lat, lng)
  {
  }

  const Ocean := "ocean"
  const Rural := "rural"
  const UrbanMedium := "urban_medium"
  const UrbanHigh := "urban_high"
  const Unknown := "unknown"

  /** The five location types the analyzer produces. */
  const LocationTypes: set<string> := {Ocean, Rural, UrbanMedium, UrbanHigh, Unknown}

  /** Outcome of the reverse-geocode request: a raised exception (network
      failure, timeout, undecodable body), or an HTTP status with the keys of
      the reply's `address` object (empty when the reply has none). */
  datatype GeocodeReply = Failed | Reply(status: int, addressKeys: set<string>)

  /** Address fields decide the type, the most urban field first. */
  function AddressType(keys: set<string>): (t: string)
    ensures t in LocationTypes && t != Ocean
    ensures t == UrbanHigh <==> "city" in keys || "town" in keys
    ensures t == UrbanMedium <==> "city" !in keys && "town" !in keys && ("village" in keys || "suburb" in keys)
    ensures t == Rural <==> "city" !in keys && "town" !in keys && "village" !in keys && "suburb" !in keys && "country" in keys
  {
    if "city" in keys || "town" in keys then UrbanHigh
    else if "village" in keys || "suburb" in keys then UrbanMedium
    else if "country" in keys then Rural
    else Unknown
  }

  /** Location type of a point: ocean by the geofence, before any lookup;
      otherwise from the reply, and "unknown" for any failure. */
  function GetLocationType(lat: real, lng: real, reply: GeocodeReply): (t: string)
    ensures t in LocationTypes
    ensures t == Ocean <==> IsOceanLocation(lat, lng)
    ensures !IsOceanLocation(lat, lng) && (reply.Failed? || reply.status != 200) ==> t == Unknown
    ensures !IsOceanLocation(lat, lng) && reply.Reply? && reply.status == 200 ==> t == AddressType(reply.addressKeys)
  {
    if IsOceanLocation(lat, lng) then Ocean
    else match reply
      case Failed => Unknown
      case Reply(status, keys) => if status == 200 then AddressType(keys) else Unknown
  }

  /** The reply is never consulted for an ocean point. */
  lemma OceanIgnoresReply(lat: real, lng: real, r1: GeocodeReply, r2: GeocodeReply)
    requires IsOceanLocation(lat, lng)
    ensures GetLocationType(lat, lng, r1) == GetLocationType(lat, lng, r2) == Ocean
  {
  }

  const CasualtyFactors: map<string, real> := map[
    Ocean := 0.001, Rural := 0.01, UrbanMedium := 0.1, UrbanHigh := 0.5, Unknown := 0.05]

  const PopulationDensity: map<string, real> := map[
    Ocean := 0.0, Rural := 30.0, UrbanMedium := 1000.0, UrbanHigh := 10000.0, Unknown := 100.0]

  function GetOr(m: map<string, real>, key: string, default: real): real {
    if key in m then m[key] else default
  }

  /** The estimate before its rate is formatted as a percentage string. */
  datatype DeathToll = DeathToll(estimatedDeaths: int, affectedAreaKm2: real, estimatedPopulation: int, casualtyFactor: real)

  function EstimateDeathToll(energyMt: real, locationType: string, impactRadiusKm: real): (r: DeathToll)
    ensures r.affectedAreaKm2 == PiApprox * impactRadiusKm * impactRadiusKm
    ensures locationType == Ocean ==> r.estimatedPopulation == 0 && r.casualtyFactor == 0.001
    ensures locationType == Ocean ==> r.estimatedDeaths == (if energyMt > 10.0 then Trunc(energyMt * 10000.0) else 0)
    ensures locationType == Rural ==> (r.casualtyFactor == 0.01
      && r.estimatedPopulation == Trunc(r.affectedAreaKm2 * 30.0)
      && r.estimatedDeaths == Trunc(r.affectedAreaKm2 * 30.0 * 0.01))
    ensures locationType == UrbanMedium ==> (r.casualtyFactor == 0.1
      && r.estimatedPopulation == Trunc(r.affectedAreaKm2 * 1000.0)
      && r.estimatedDeaths == Trunc(r.affectedAreaKm2 * 1000.0 * 0.1))
    ensures locationType == UrbanHigh ==> (r.casualtyFactor == 0.5
      && r.estimatedPopulation == Trunc(r.affectedAreaKm2 * 10000.0)
      && r.estimatedDeaths == Trunc(r.affectedAreaKm2 * 10000.0 * 0.5))
    ensures (locationType == Unknown || locationType !in LocationTypes) ==> (r.casualtyFactor == 0.05
      && r.estimatedPopulation == Trunc(r.affectedAreaKm2 * 100.0)
      && r.estimatedDeaths == Trunc(r.affectedAreaKm2 * 100.0 * 0.05))
    ensures energyMt >= 0.0 ==> 0 <= r.estimatedPopulation && 0 <= r.estimatedDeaths
    ensures locationType != Ocean ==> r.estimatedDeaths <= r.estimatedPopulation
  {
    var affectedArea := PiApprox * (impactRadiusKm * impactRadiusKm);
    var basePopulation := affectedArea * GetOr(PopulationDensity, locationType, 100.0);
    var factor := GetOr(CasualtyFactors, locationType, 0.05);
    var deaths := Trunc(basePopulation * factor);
    var deaths' := if locationType == Ocean && energyMt > 10.0 then deaths + Trunc(energyMt * 10000.0) else deaths;
    DeathToll(deaths', affectedArea, Trunc(basePopulation), factor)
  }

  /** `max(1, sqrt(E) * 2)`, with the square root a parameter. */
  function CalculateImpactRadius(energyMt: real, sqrt: real -> real): (r: real)
    ensures r >= 1.0 && r >= 2.0 * sqrt(energyMt)
    ensures r == 1.0 || r == 2.0 * sqrt(energyMt)
  {
    MaxReal(1.0, sqrt(energyMt) * 2.0)
  }

  const Descriptions: map<string, string> := map[
    Ocean := "محيط - خطر تسونامي محتمل",
    Rural := "منطقة ريفية - كثافة سكانية منخفضة",
    UrbanMedium := "منطقة حضرية متوسطة - كثافة سكانية عالية",
    UrbanHigh := "منطقة حضرية عالية الكثافة - خطر كبير",
    Unknown := "منطقة غير معروفة - افتراض خطر متوسط"]

  const DefaultDescription := "منطقة غير معروفة"

  function GetLocationDescription(locationType: string): (d: string)
    ensures locationType in LocationTypes ==> d == Descriptions[locationType]
    ensures locationType !in LocationTypes ==> d == DefaultDescription
  {
    if locationType in Descriptions then Descriptions[locationType] else DefaultDescription
  }

  const Threats: map<string, string> := map[
    Ocean := "🌊 تسونامي وأمواج صدمية",
    Rural := "💥 انفجار وموجة صدمية",
    UrbanMedium := "💥 دمار مباشر وحرائق",
    UrbanHigh := "💥 دمار شامل وحرائق واسعة",
    Unknown := "⚠️ تأثير مباشر"]

  const DefaultThreat := "⚠️ تأثير غير محدد"

  function GetPrimaryThreat(locationType: string): (t: string)
    ensures locationType in LocationTypes ==> t == Threats[locationType]
    ensures locationType !in LocationTypes ==> t == DefaultThreat
  {
    if locationType in Threats then Threats[locationType] else DefaultThreat
  }

  /** Every location type the analyzer can produce has its own text in both tables. */
  lemma ProducedTypesAreListed(lat: real, lng: real, reply: GeocodeReply)
    ensures GetLocationDescription(GetLocationType(lat, lng, reply)) != DefaultDescription
    ensures GetPrimaryThreat(GetLocationType(lat, lng, reply)) != DefaultThreat
  {
  }

  datatype ImpactAnalysis = ImpactAnalysis(
    asteroidName: string, lat: real, lng: real, locationType: string, description: string,
    energyMt: real, impactRadiusKm: real, toll: DeathToll, primaryThreat: string)

  /** `analyze_impact`: the pieces above, composed for one asteroid and site. */
  function AnalyzeImpact(name: string, energyMt: real, lat: real, lng: real, reply: GeocodeReply, sqrt: real -> real): (a: ImpactAnalysis)
    ensures a.asteroidName == name && a.lat == lat && a.lng == lng && a.energyMt == energyMt
    ensures a.locationType == GetLocationType(lat, lng, reply)
    ensures a.description == GetLocationDescription(a.locationType) && a.primaryThreat == GetPrimaryThreat(a.locationType)
    ensures a.impactRadiusKm == CalculateImpactRadius(energyMt, sqrt) && a.impactRadiusKm >= 1.0
    ensures a.toll == EstimateDeathToll(energyMt, a.locationType, a.impactRadiusKm)
    ensures IsOceanLocation(lat, lng) ==> a.primaryThreat == Threats[Ocean] && a.toll.estimatedPopulation == 0
  {
    var t := GetLocationType(lat, lng, reply);
    var radius := CalculateImpactRadius(energyMt, sqrt);
    ImpactAnalysis(name, lat, lng, t, GetLocationDescription(t), energyMt, radius,
                   EstimateDeathToll(energyMt, t, radius), GetPrimaryThreat(t))
  }
}

=== FILE: Optimizer.dfy ===
/** `QuantumDefenseOptimizer` on its classical path (no quantum backend):
    a fixed cost table, the minimum-cost choice with a one-hot solution,
    parameter validation with a fallback result, the justification texts and
    the table summary. The execution timestamp (the clock plus the time to
    impact) is not part of the model. */
module Optimizer {
  import opened Common

  /** The cost table, in its declaration order. */
  const DefenseStrategies: seq<(string, int)> := [("Kinetic", 3), ("Nuclear", 8), ("Laser", 5), ("Gravity", 2)]

  function Names(t: seq<(string, int)>): (r: seq<string>)
    ensures |r| == |t| && forall i :: 0 <= i < |t| ==> r[i] == t[i].0
  {
    seq(|t|, i requires 0 <= i < |t| => t[i].0)
  }

  function Costs(t: seq<(string, int)>): (r: seq<int>)
    ensures |r| == |t| && forall i :: 0 <= i < |t| ==> r[i] == t[i].1
  {
    seq(|t|, i requires 0 <= i < |t| => t[i].1)
  }

  /** `min(table, key=table.get)`: the first entry of least cost. */
  function MinIndex(t: seq<(string, int)>): (i: nat)
    requires |t| > 0
    ensures i < |t|
    ensures forall k :: 0 <= k < |t| ==> t[i].1 <= t[k].1
    ensures forall k :: 0 <= k < i ==> t[k].1 > t[i].1
  {
    if |t| == 1 then 0
    else
      var j := MinIndex(t[..|t| - 1]);
      if t[|t| - 1].1 < t[j].1 then |t| - 1 else j
  }

  /** `max(table.values())`. */
  function MaxCost(t: seq<(string, int)>): (c: int)
    requires |t| > 0
    ensures forall k :: 0 <= k < |t| ==> t[k].1 <= c
    ensures exists k :: 0 <= k < |t| && t[k].1 == c
  {
    if |t| == 1 then t[0].1
    else
      var m := MaxCost(t[..|t| - 1]);
      assert forall k :: 0 <= k < |t| - 1 ==> t[..|t| - 1][k] == t[k];
      if t[|t| - 1].1 > m then t[|t| - 1].1 else m
  }

  /** The one-hot vector of length `n` with its 1 at `i`. */
  function OneHot(n: nat, i: nat): (v: seq<int>)
    requires i < n
    ensures |v| == n
    ensures v[i] == 1
    ensures forall k :: 0 <= k < n && k != i ==> v[k] == 0
  {
    seq(n, k => if k == i then 1 else 0)
  }

  /** The classical problem: parallel name and cost lists and the constraint name. */
  datatype Problem = Problem(strategies: seq<string>, costs: seq<int>, constraint: string)

  /** `create_optimization_problem` without a quantum backend; the asteroid
      parameters are not consulted. */
  function CreateOptimizationProblem(): (p: Problem)
    ensures |p.strategies| == |p.costs| == |DefenseStrategies|
    ensures forall i :: 0 <= i < |DefenseStrategies| ==>
      (p.strategies[i], p.costs[i]) == DefenseStrategies[i]
    ensures p.constraint == "exactly_one_strategy"
  {
    Problem(Names(DefenseStrategies), Costs(DefenseStrategies), "exactly_one_strategy")
  }

  /** The note the classical path attaches to its result. */
  const ClassicalNote := "Using classical optimization due to Qiskit unavailability"

  datatype SolutionInfo = SolutionInfo(
    optimalValue: int, optimalSolution: seq<int>, strategyCosts: seq<(string, int)>,
    selectedStrategyCost: int, quantumAlgorithm: string, backend: string,
    optimizationSuccessful: bool, note: string)

  /** The classical branch of `solve_with_qaoa`. */
  function SolveClassical(): (r: (string, SolutionInfo))
    ensures exists i :: (0 <= i < |DefenseStrategies| && r.0 == DefenseStrategies[i].0
                         && r.1.optimalValue == DefenseStrategies[i].1
                         && r.1.optimalSolution == OneHot(|DefenseStrategies|, i))
    ensures forall k :: 0 <= k < |DefenseStrategies| ==> r.1.optimalValue <= DefenseStrategies[k].1
    ensures r.1.selectedStrategyCost == r.1.optimalValue
    ensures r.1.strategyCosts == DefenseStrategies && r.1.optimizationSuccessful
  {
    var i := MinIndex(DefenseStrategies);
    var cost := DefenseStrategies[i].1;
    (DefenseStrategies[i].0,
     SolutionInfo(cost, OneHot(|DefenseStrategies|, i), DefenseStrategies, cost,
                  "Classical_Optimization", "Classical", true,
                  ClassicalNote))
  }

  /** On this table the choice is Gravity at cost 2, the fourth entry. */
  lemma ClassicalChoiceIsGravity()
    ensures MinIndex(DefenseStrategies) == 3
    ensures SolveClassical().0 == "Gravity" && SolveClassical().1.optimalValue == 2
    ensures SolveClassical().1.optimalSolution == [0, 0, 0, 1]
  {
    var i := MinIndex(DefenseStrategies);
    assert DefenseStrategies[i].1 <= DefenseStrategies[3].1 == 2;
    assert forall k :: 0 <= k < 3 ==> DefenseStrategies[k].1 > 2;
    assert OneHot(4, 3) == [0, 0, 0, 1];
  }

  const MissingParameterPrefix := "Missing required parameter: "

  /** The parameters `optimize_defense_strategy` requires, in the order checked. */
  const RequiredParams: seq<string> := ["mass", "velocity", "time_to_impact"]

  /** The first required parameter absent from the request, if any. */
  function FirstMissing(params: map<string, real>, required: seq<string>): (m: Option<string>)
    ensures m.None? <==> forall j :: 0 <= j < |required| ==> required[j] in params
    ensures m.Some? ==> exists i :: (0 <= i < |required| && m.value == required[i] && required[i] !in params
                                    && forall j :: 0 <= j < i ==> required[j] in params)
  {
    if required == [] then None
    else if required[0] !in params then Some(required[0])
    else
      var rest := FirstMissing(params, required[1..]);
      assert forall j :: 1 <= j < |required| ==> required[j] == required[1..][j - 1];
      rest
  }

  /** The validation loop: the error for the first missing parameter, or none. */
  method ValidateParameters(params: map<string, real>) returns (error: Option<string>)
    ensures error == (match FirstMissing(params, RequiredParams)
                        case None => None
                        case Some(p) => Some(MissingParameterPrefix + p))
  {
    for i := 0 to |RequiredParams|
      invariant FirstMissing(params, RequiredParams) == FirstMissing(params, RequiredParams[i..])
    {
      var param := RequiredParams[i];
      if param !in params {
        return Some(MissingParameterPrefix + param);
      }
      assert RequiredParams[i..][1..] == RequiredParams[i + 1..];
    }
    return None;
  }

  /** The justification texts, each up to its first interpolated number. */
  const Justifications: map<string, string> := map[
    "Gravity" := "Selected Gravity Tractor (cost: 2) - Most cost-effective for long-term deflection. Mass: ",
    "Kinetic" := "Selected Kinetic Impactor (cost: 3) - Proven technology with moderate cost. Effective for medium-sized asteroids. Mass: ",
    "Laser" := "Selected Laser Ablation (cost: 5) - Advanced technology for precise deflection. Good for smaller asteroids with sufficient preparation time.",
    "Nuclear" := "Selected Nuclear Deflection (cost: 8) - Maximum effectiveness for large threats. High cost justified by asteroid mass: "]

  const FallbackJustification := "Fallback to lowest cost strategy due to optimization error"

  const DefaultJustification := "Strategy selected based on cost optimization"

  /** `_get_strategy_justification`: the listed text, or the default for an unknown name. */
  function StrategyJustification(strategy: string): (text: string)
    ensures strategy in Justifications ==> text == Justifications[strategy]
    ensures strategy !in Justifications ==> text == DefaultJustification
  {
    if strategy in Justifications then Justifications[strategy] else DefaultJustification
  }

  /** Exactly the strategies of the cost table have their own justification. */
  lemma JustificationsCoverTable()
    ensures forall i :: 0 <= i < |DefenseStrategies| ==> DefenseStrategies[i].0 in Justifications
    ensures forall name :: name in Justifications ==> name in Names(DefenseStrategies)
  {
    assert Justifications.Keys == {"Gravity", "Kinetic", "Laser", "Nuclear"};
    var names := Names(DefenseStrategies);
    assert names == ["Kinetic", "Nuclear", "Laser", "Gravity"];
  }

  /** The result of `optimize_defense_strategy`; the fallback carries the error. */
  datatype Outcome =
    | Optimized(bestStrategy: string, details: SolutionInfo, parameters: map<string, real>, justification: string)
    | Fallback(bestStrategy: string, error: string, parameters: map<string, real>, justification: string)

  /** `optimize_defense_strategy`: a missing parameter leads to the fallback,
      which still picks the lowest-cost strategy. */
  method OptimizeDefenseStrategy(params: map<string, real>) returns (r: Outcome)
    ensures r.Fallback? <==> exists j :: 0 <= j < |RequiredParams| && RequiredParams[j] !in params
    ensures r.bestStrategy == SolveClassical().0
    ensures r.parameters == params
    ensures r.Optimized? ==> r.details == SolveClassical().1 && r.justification == StrategyJustification(r.bestStrategy)
    ensures r.Fallback? ==> r.justification == FallbackJustification
    ensures r.Fallback? ==> r.error == MissingParameterPrefix + FirstMissing(params, RequiredParams).value
  {
    var error := ValidateParameters(params);
    var (best, info) := SolveClassical();
    if error.Some? {
      return Fallback(best, error.value, params, FallbackJustification);
    }
    r := Optimized(best, info, params, StrategyJustification(best));
  }

  const SummaryDescription := "Quantum-optimized defense strategy selection based on cost minimization"

  datatype Summary = Summary(strategies: seq<(string, int)>, totalStrategies: nat, lowestCost: int, highestCost: int, description: string)

  /** `get_available_strategies`. */
  function GetAvailableStrategies(): (s: Summary)
    ensures s.strategies == DefenseStrategies && s.totalStrategies == |DefenseStrategies|
    ensures s.lowestCost == SolveClassical().1.optimalValue
    ensures forall k :: 0 <= k < |DefenseStrategies| ==> s.lowestCost <= DefenseStrategies[k].1 <= s.highestCost
  {
    Summary(DefenseStrategies, |DefenseStrategies|, DefenseStrategies[MinIndex(DefenseStrategies)].1,
            MaxCost(DefenseStrategies),
            SummaryDescription)
  }

  /** On this table: four strategies, costs from 2 to 8. */
  lemma AvailableSummaryValues()
    ensures GetAvailableStrategies().totalStrategies == 4
    ensures GetAvailableStrategies().lowestCost == 2
    ensures GetAvailableStrategies().highestCost == 8
  {
    ClassicalChoiceIsGravity();
    var s := GetAvailableStrategies();
    assert DefenseStrategies[1].1 == 8;
    assert s.highestCost >= 8;
    var k :| 0 <= k < |DefenseStrategies| && DefenseStrategies[k].1 == MaxCost(DefenseStrategies);
  }
}

=== FILE: Physics.dfy ===
/** The impact-physics formulas of `AsteroidPhysics`: sphere mass, kinetic
    energy in three units, impact effects and the hazard-tier cascade. The
    fractional powers of the effects formulas are a parameter `pow`
    (`pow(x, e)` stands for `x ** e`). */
module Physics {
  import opened Common

  /** Default bulk density (kg/m^3) of `calculate_mass`. */
  const DefaultDensity: real := 2600.0

  /** Joules in one megaton of TNT, and megatons in one Hiroshima bomb. */
  const JoulesPerMegaton: real := 4184000000000000.0
  const MegatonsPerHiroshima: real := 0.015

  function Cube(x: real): real { x * x * x }

  /** Mass (kg) of a uniform sphere of the given diameter (m) and density. */
  function Mass(diameterM: real, density: real): (m: real)
    ensures diameterM >= 0.0 && density >= 0.0 ==> m >= 0.0
    ensures density > 0.0 ==> (m == 0.0 <==> diameterM == 0.0)
  {
    var radius := diameterM / 2.0;
    var volume := (4.0 / 3.0) * Pi * Cube(radius);
    assert Cube(radius) == 0.0 ==> radius == 0.0 by {
      if radius != 0.0 { assert radius * radius > 0.0; }
    }
    volume * density
  }

  /** `calculate_mass` called without a density. */
  function MassDefault(diameterM: real): (m: real)
    ensures m == Mass(diameterM, DefaultDensity)
    ensures diameterM > 0.0 ==> m > 0.0
  {
    Mass(diameterM, DefaultDensity)
  }

  lemma CubeDoubles(x: real)
    ensures Cube(2.0 * x) == 8.0 * Cube(x)
  {
  }

  /** Doubling the diameter multiplies the mass by eight. */
  lemma {:induction false} MassScalesWithCube(diameterM: real, density: real)
    ensures Mass(2.0 * diameterM, density) == 8.0 * Mass(diameterM, density)
  {
    assert (2.0 * diameterM) / 2.0 == 2.0 * (diameterM / 2.0);
    CubeDoubles(diameterM / 2.0);
  }

  datatype Energy = Energy(joules: real, megatons: real, hiroshima: real)

  /** Kinetic energy of a mass (kg) moving at a speed given in km/s. */
  function KineticEnergy(massKg: real, velocityKmS: real): (e: Energy)
    ensures e.joules == 500000.0 * massKg * velocityKmS * velocityKmS
    ensures e.megatons * JoulesPerMegaton == e.joules
    ensures e.hiroshima * MegatonsPerHiroshima == e.megatons
    ensures massKg >= 0.0 ==> e.joules >= 0.0 && e.megatons >= 0.0 && e.hiroshima >= 0.0
  {
    var velocityMS := velocityKmS * 1000.0;
    var joules := 0.5 * massKg * (velocityMS * velocityMS);
    var megatons := joules / JoulesPerMegaton;
    Energy(joules, megatons, megatons / MegatonsPerHiroshima)
  }

  /** The energy is linear in the mass. */
  lemma EnergyLinearInMass(massKg: real, k: real, velocityKmS: real)
    ensures KineticEnergy(k * massKg, velocityKmS).joules == k * KineticEnergy(massKg, velocityKmS).joules
    ensures KineticEnergy(k * massKg, velocityKmS).megatons == k * KineticEnergy(massKg, velocityKmS).megatons
  {
    var e1 := KineticEnergy(massKg, velocityKmS);
    var e2 := KineticEnergy(k * massKg, velocityKmS);
    assert e2.megatons * JoulesPerMegaton == (k * e1.megatons) * JoulesPerMegaton;
  }

  /** For a non-negative mass the energy does not decrease with the speed. */
  lemma EnergyMonotoneInVelocity(massKg: real, v1: real, v2: real)
    requires massKg >= 0.0 && 0.0 <= v1 <= v2
    ensures KineticEnergy(massKg, v1).joules <= KineticEnergy(massKg, v2).joules
    ensures KineticEnergy(massKg, v1).megatons <= KineticEnergy(massKg, v2).megatons
    ensures KineticEnergy(massKg, v1).hiroshima <= KineticEnergy(massKg, v2).hiroshima
  {
    assert v1 * v1 <= v1 * v2 <= v2 * v2;
    var a := 500000.0 * massKg;
    assert a >= 0.0;
    assert a * (v1 * v1) <= a * (v2 * v2);
  }

  datatype Effects = Effects(craterKm: real, destructionRadiusKm: real, shockWaveKmS: real, affectedAreaKm2: real)

  /** Impact effects of an energy in megatons. */
  function ImpactEffects(energyMt: real, pow: (real, real) -> real): (r: Effects)
    ensures r.destructionRadiusKm == 10.0 * r.craterKm
    ensures r.affectedAreaKm2 == Pi * r.destructionRadiusKm * r.destructionRadiusKm
    ensures r.affectedAreaKm2 == 100.0 * Pi * r.craterKm * r.craterKm
    ensures pow(energyMt, 0.3658) >= 0.0 ==> r.craterKm >= 0.0 && r.affectedAreaKm2 >= 0.0
  {
    var crater := 0.0177 * pow(energyMt, 0.3658);
    var destruction := crater * 10.0;
    Effects(crater, destruction, 0.4 * pow(energyMt, 0.25), Pi * (destruction * destruction))
  }

  /** With `0 ** e == 0`, as Python computes it, zero energy gives no effects at all. */
  lemma ZeroEnergyNoEffects(pow: (real, real) -> real)
    requires pow(0.0, 0.3658) == 0.0 && pow(0.0, 0.25) == 0.0
    ensures ImpactEffects(0.0, pow) == Effects(0.0, 0.0, 0.0, 0.0)
  {
  }

  datatype HazardTier = ExtinctionLevel | CivilizationThreat | RegionalDevastation | CityDestroyer | LowRisk

  /** The first matching rule of the hazard cascade wins. */
  function ClassifyHazard(diameterM: real, distanceKm: real, energyMt: real): (t: HazardTier)
    ensures t == ExtinctionLevel <==> diameterM >= 1000.0 && DistanceAu(distanceKm) < 0.05
    ensures t == CivilizationThreat <==> (!(diameterM >= 1000.0 && DistanceAu(distanceKm) < 0.05)
      && diameterM >= 300.0 && DistanceAu(distanceKm) < 0.1 && energyMt > 1000.0)
    ensures t == RegionalDevastation <==> (!(diameterM >= 1000.0 && DistanceAu(distanceKm) < 0.05)
      && !(diameterM >= 300.0 && DistanceAu(distanceKm) < 0.1 && energyMt > 1000.0)
      && diameterM >= 140.0 && DistanceAu(distanceKm) < 0.05)
    ensures t == CityDestroyer <==> (!(diameterM >= 1000.0 && DistanceAu(distanceKm) < 0.05)
      && !(diameterM >= 300.0 && DistanceAu(distanceKm) < 0.1 && energyMt > 1000.0)
      && !(diameterM >= 140.0 && DistanceAu(distanceKm) < 0.05)
      && diameterM >= 50.0 && DistanceAu(distanceKm) < 0.01)
  {
    var au := DistanceAu(distanceKm);
    if diameterM >= 1000.0 && au < 0.05 then ExtinctionLevel
    else if diameterM >= 300.0 && au < 0.1 && energyMt > 1000.0 then CivilizationThreat
    else if diameterM >= 140.0 && au < 0.05 then RegionalDevastation
    else if diameterM >= 50.0 && au < 0.01 then CityDestroyer
    else LowRisk
  }

  /** A large close body is an extinction-level threat whatever its energy. */
  lemma ExtinctionIgnoresEnergy(diameterM: real, distanceKm: real, e1: real, e2: real)
    requires diameterM >= 1000.0 && DistanceAu(distanceKm) < 0.05
    ensures ClassifyHazard(diameterM, distanceKm, e1) == ClassifyHazard(diameterM, distanceKm, e2) == ExtinctionLevel
  {
  }

  /** Every tier but the last needs a miss distance under 0.1 AU. */
  lemma FarIsLowRisk(diameterM: real, distanceKm: real, energyMt: real)
    requires DistanceAu(distanceKm) >= 0.1
    ensures ClassifyHazard(diameterM, distanceKm, energyMt) == LowRisk
  {
  }

  /** The civilization tier needs more than 1000 Mt and a failed extinction rule. */
  lemma CivilizationNeedsEnergy(diameterM: real, distanceKm: real, energyMt: real)
    requires ClassifyHazard(diameterM, distanceKm, energyMt) == CivilizationThreat
    ensures energyMt > 1000.0 && diameterM >= 300.0
    ensures !(diameterM >= 1000.0 && DistanceAu(distanceKm) < 0.05)
  {
  }

  /** A 1500 m body passing at 1,000,000 km carrying 50,000 Mt. */
  lemma HazardExample()
    ensures ClassifyHazard(1500.0, 1000000.0, 50000.0) == ExtinctionLevel
  {
  }

  /** The user-impact endpoint's own mass formula: diameter in km, pi written
      as 3.14159, and a caller-supplied mass taking precedence. */
  function UserMass(massKg: Option<real>, diameterKm: real, density: real): (m: real)
    ensures massKg.Some? ==> m == massKg.value
    ensures massKg.None? ==> m * Pi == Mass(1000.0 * diameterKm, density) * PiApprox
  {
    match massKg
    case Some(given) => given
    case None =>
      var volume := (4.0 / 3.0) * PiApprox * Cube(diameterKm * 1000.0 / 2.0);
      volume * density
  }

  /** The same endpoint's energy in megatons, written out inline. */
  function UserEnergyMegatons(massKg: real, velocityKmS: real): (mt: real)
    ensures mt == KineticEnergy(massKg, velocityKmS).megatons
  {
    var joules := 0.5 * massKg * ((velocityKmS * 1000.0) * (velocityKmS * 1000.0));
    joules / JoulesPerMegaton
  }
}

=== FILE: QuantumRisk.dfy ===
/** `QuantumAsteroidAnalyzer`: three cascades map energy, miss distance and
    size to pairs (safe, dangerous) of probabilities; the risk score is the
    mean dangerous weight scaled by 1.2 and capped at 1. An uncertainty
    class and an interpretation text go with it. A failing calculation (a
    missing field, or a zero distance in the uncertainty ratio) gives the
    fixed error report. */
module QuantumRisk {
  import opened Common

  /** A state as its two amplitudes (safe, dangerous). */
  type State = (real, real)

  /** `energy_to_quantum_state`. */
  function EnergyState(energyMt: real): (s: State)
    ensures s.0 + s.1 == 1.0
    ensures s.1 == (if energyMt > 100.0 then 0.8 else if energyMt > 50.0 then 0.5 else 0.2)
  {
    if energyMt > 100.0 then (0.2, 0.8)
    else if energyMt > 50.0 then (0.5, 0.5)
    else (0.8, 0.2)
  }

  /** `distance_to_quantum_state`, on the distance in astronomical units. */
  function DistanceState(missDistanceKm: real): (s: State)
    ensures s.0 + s.1 == 1.0
    ensures s.1 == (if DistanceAu(missDistanceKm) < 0.05 then 0.9
                    else if DistanceAu(missDistanceKm) < 0.1 then 0.6 else 0.1)
  {
    var au := DistanceAu(missDistanceKm);
    if au < 0.05 then (0.1, 0.9)
    else if au < 0.1 then (0.4, 0.6)
    else (0.9, 0.1)
  }

  /** `size_to_quantum_state`. */
  function SizeState(diameter: real): (s: State)
    ensures s.0 + s.1 == 1.0
    ensures s.1 == (if diameter > 140.0 then 0.7 else if diameter > 50.0 then 0.4 else 0.2)
  {
    if diameter > 140.0 then (0.3, 0.7)
    else if diameter > 50.0 then (0.6, 0.4)
    else (0.8, 0.2)
  }

  /** `simulate_quantum_entanglement`. */
  function Entangle(energy: State, distance: State, size: State): (p: real)
    ensures p <= 1.0 && p <= 1.2 * ((energy.1 + distance.1 + size.1) / 3.0)
    ensures p == 1.0 || p == 1.2 * ((energy.1 + distance.1 + size.1) / 3.0)
  {
    MinReal((energy.1 + distance.1 + size.1) / 3.0 * 1.2, 1.0)
  }

  /** The score of an asteroid from its three fields. */
  function RiskScore(energyMt: real, missDistanceKm: real, diameter: real): (p: real)
    ensures 0.2 <= p <= 0.96
    ensures p == 1.2 * ((EnergyState(energyMt).1 + DistanceState(missDistanceKm).1 + SizeState(diameter).1) / 3.0)
  {
    Entangle(EnergyState(energyMt), DistanceState(missDistanceKm), SizeState(diameter))
  }

  /** More energy, a closer pass or a larger size never lowers the score. */
  lemma RiskScoreMonotone(e1: real, e2: real, m1: real, m2: real, s1: real, s2: real)
    requires e1 <= e2 && m2 <= m1 && s1 <= s2
    ensures RiskScore(e1, m1, s1) <= RiskScore(e2, m2, s2)
  {
    assert DistanceAu(m2) <= DistanceAu(m1);
  }

  /** `calculate_uncertainty`; the ratio needs a non-zero distance. */
  function UncertaintyScore(energyMt: real, missDistanceKm: real): (u: real)
    requires missDistanceKm != 0.0
    ensures missDistanceKm > 0.0 && energyMt >= 0.0 ==> u >= 0.0
  {
    (energyMt / 100.0) * (10000000.0 / missDistanceKm)
  }

  function UncertaintyLevel(score: real): (level: string)
    ensures level == "high" <==> score > 0.7
    ensures level == "low" <==> score <= 0.3
    ensures level in {"high", "medium", "low"}
  {
    if score > 0.7 then "high" else if score > 0.3 then "medium" else "low"
  }

  /** At a fixed energy, a nearer pass is never less uncertain. */
  lemma UncertaintyGrowsAsDistanceShrinks(energyMt: real, d1: real, d2: real)
    requires energyMt >= 0.0 && 0.0 < d1 <= d2
    ensures UncertaintyScore(energyMt, d2) <= UncertaintyScore(energyMt, d1)
  {
    assert 10000000.0 / d2 <= 10000000.0 / d1;
    var e := energyMt / 100.0;
    assert e * (10000000.0 / d1 - 10000000.0 / d2) >= 0.0;
  }

  const HighInterpretation := "🌀 حالة كمومية عالية الخطورة"
  const EqualInterpretation := "⚡ حالة تراكب - احتمال متساوي"
  const SafeInterpretation := "💫 حالة كمومية آمنة"

  /** `get_quantum_interpretation`. */
  function Interpretation(score: real): (text: string)
    ensures text == HighInterpretation <==> score > 0.7
    ensures text == SafeInterpretation <==> score <= 0.4
    ensures text in {HighInterpretation, EqualInterpretation, SafeInterpretation}
  {
    if score > 0.7 then HighInterpretation
    else if score > 0.4 then EqualInterpretation
    else SafeInterpretation
  }

  /** The report; the error variant stands for the fixed error report
      (score 0.5, state "error", certainty "unknown") whose text starts
      with `ErrorPrefix`. */
  datatype Report =
    | Report(quantumRiskScore: real, quantumState: string, certaintyLevel: string, interpretation: string)
    | ErrorReport(quantumRiskScore: real, quantumState: string, certaintyLevel: string, interpretationPrefix: string)

  const ErrorPrefix := "خطأ في الحساب: "

  const EnergyKey := "energy_megatons_TNT"
  const DistanceKey := "miss_distance_km"
  const SizeKey := "diameter_avg"

  /** `quantum_risk_calculation` on the asteroid's fields as a dictionary. */
  function QuantumRiskCalculation(data: map<string, real>): (r: Report)
    ensures r.ErrorReport? <==> EnergyKey !in data || DistanceKey !in data || SizeKey !in data || data[DistanceKey] == 0.0
    ensures r.ErrorReport? ==>
      (r.quantumRiskScore == 0.5 && r.quantumState == "error"
       && r.certaintyLevel == "unknown" && r.interpretationPrefix == ErrorPrefix)
    ensures r.Report? ==>
      (r.quantumState == "superposition"
       && r.quantumRiskScore == RiskScore(data[EnergyKey], data[DistanceKey], data[SizeKey])
       && r.certaintyLevel == UncertaintyLevel(UncertaintyScore(data[EnergyKey], data[DistanceKey]))
       && r.interpretation == Interpretation(r.quantumRiskScore))
    ensures 0.2 <= r.quantumRiskScore <= 0.96
  {
    if EnergyKey !in data || DistanceKey !in data || SizeKey !in data || data[DistanceKey] == 0.0 then
      ErrorReport(0.5, "error", "unknown", ErrorPrefix)
    else
      var score := RiskScore(data[EnergyKey], data[DistanceKey], data[SizeKey]);
      Report(score, "superposition", UncertaintyLevel(UncertaintyScore(data[EnergyKey], data[DistanceKey])),
             Interpretation(score))
  }

  /** The most dangerous inputs give the top score 0.96 and the high interpretation. */
  lemma TopScore(energyMt: real, missDistanceKm: real, diameter: real)
    requires energyMt > 100.0 && DistanceAu(missDistanceKm) < 0.05 && diameter > 140.0
    ensures RiskScore(energyMt, missDistanceKm, diameter) == 0.96
    ensures Interpretation(RiskScore(energyMt, missDistanceKm, diameter)) == HighInterpretation
  {
  }
}

=== FILE: Response.dfy ===
/** The response-planning helpers: coastal infrastructure at risk and its
    damage estimate, evacuation zones, the risk score of a user-defined
    asteroid with its emergency response, and the feasibility of a defence
    mission. */
module Response {
  import opened Common
  import Location
  import Coast

  /** The facilities named for a coast within 1000 km. */
  const NearCoastFacilities: seq<string> := [
    "Major port facilities", "Coastal power plants", "Desalination plants",
    "Coastal highways and bridges", "Tourist infrastructure"]

  const RemoteCoastFacilities: seq<string> := ["Remote coastal communities", "Small ports"]

  /** The damage estimate before it is formatted: the amount in US dollars
      and the unit it is written in. */
  datatype Damage = Damage(amountUsd: real, unit: string)

  /** One million dollars per megaton, scaled down with the distance to the
      coast but never below a tenth. */
  function DistanceFactor(distanceKm: real): (f: real)
    ensures f >= 0.1 && f >= 1.0 - distanceKm / 5000.0
    ensures distanceKm >= 0.0 ==> f <= 1.0
    ensures f == 0.1 || f == 1.0 - distanceKm / 5000.0
  {
    MaxReal(0.1, 1.0 - distanceKm / 5000.0)
  }

  /** `estimate_infrastructure_damage_cost`. */
  function EstimateInfrastructureDamage(energyMt: real, distanceKm: real): (d: Damage)
    ensures d.amountUsd == energyMt * 1000000.0 * DistanceFactor(distanceKm)
    ensures d.unit in {"trillion", "billion", "million"}
    ensures d.unit == "trillion" <==> d.amountUsd > 1000000000000.0
    ensures d.unit == "million" <==> d.amountUsd <= 1000000000.0
  {
    var total := energyMt * 1000000.0 * DistanceFactor(distanceKm);
    Damage(total, if total > 1000000000000.0 then "trillion" else if total > 1000000000.0 then "billion" else "million")
  }

  /** A farther coast never raises the damage, for a non-negative energy. */
  lemma DamageDecreasesWithDistance(energyMt: real, d1: real, d2: real)
    requires energyMt >= 0.0 && d1 <= d2
    ensures EstimateInfrastructureDamage(energyMt, d2).amountUsd <= EstimateInfrastructureDamage(energyMt, d1).amountUsd
  {
    var base := energyMt * 1000000.0;
    assert base >= 0.0;
    assert DistanceFactor(d2) <= DistanceFactor(d1);
    var f1, f2 := DistanceFactor(d1), DistanceFactor(d2);
    assert base * f2 <= base * f1 by {
      assert base * (f1 - f2) >= 0.0;
    }
    assert EstimateInfrastructureDamage(energyMt, d1).amountUsd == base * f1;
    assert EstimateInfrastructureDamage(energyMt, d2).amountUsd == base * f2;
  }

  /** Beyond 4500 km of the coast the damage stays at its floor, a tenth of the base. */
  lemma DamageFloor(energyMt: real, distanceKm: real)
    requires distanceKm >= 4500.0
    ensures EstimateInfrastructureDamage(energyMt, distanceKm).amountUsd == energyMt * 100000.0
  {
  }

  datatype Infrastructure = Infrastructure(
    riskLevel: string, distanceToCoastKm: real, affectedFacilities: seq<string>, estimatedDamage: Damage)

  /** `assess_coastal_infrastructure`: the risk falls as the coast gets farther. */
  function AssessCoastalInfrastructure(lat: real, lng: real, energyMt: real, dist: (real, real, real, real) -> real): (r: Infrastructure)
    ensures r.distanceToCoastKm == Coast.CoastDistance(lat, lng, dist)
    ensures r.riskLevel == "LOW" <==> r.distanceToCoastKm > 2000.0
    ensures r.riskLevel == "MEDIUM" <==> 1000.0 < r.distanceToCoastKm <= 2000.0
    ensures r.riskLevel == "HIGH" <==> r.distanceToCoastKm <= 1000.0
    ensures r.riskLevel == "LOW" <==> r.affectedFacilities == []
    ensures r.riskLevel == "HIGH" ==> r.affectedFacilities == NearCoastFacilities
    ensures r.riskLevel == "MEDIUM" ==> r.affectedFacilities == RemoteCoastFacilities
    ensures r.estimatedDamage == EstimateInfrastructureDamage(energyMt, r.distanceToCoastKm)
  {
    var d := Coast.CoastDistance(lat, lng, dist);
    var (level, facilities) :=
      if d > 2000.0 then ("LOW", [])
      else if d > 1000.0 then ("MEDIUM", RemoteCoastFacilities)
      else ("HIGH", NearCoastFacilities);
    Infrastructure(level, d, facilities, EstimateInfrastructureDamage(energyMt, d))
  }

  /** A land site counts as on the coast: distance 0, risk "HIGH", the full
      base damage. */
  lemma LandRatedHigh(lat: real, lng: real, energyMt: real, dist: (real, real, real, real) -> real)
    requires !Location.IsOceanLocation(lat, lng)
    ensures AssessCoastalInfrastructure(lat, lng, energyMt, dist).riskLevel == "HIGH"
    ensures AssessCoastalInfrastructure(lat, lng, energyMt, dist).estimatedDamage.amountUsd == energyMt * 1000000.0
  {
  }

  /** `get_evacuation_zones_improved`: coastal zones at sea, radius zones on land. */
  datatype EvacuationZones =
    | CoastalZones(coastalEvacuation: string, maritimeEvacuation: string, elevatedShelter: string, evacuationTime: string)
    | RadiusZones(immediateEvacuation: string, secondaryZone: string, monitoringZone: string)

  const OceanMajorZones := CoastalZones("All areas within 50km of coastline", "All vessels within 500km of impact",
                                        "Move to >50m elevation", "Immediate - before impact")
  const OceanModerateZones := CoastalZones("Low-lying coastal areas within 20km", "Vessels within 200km",
                                           "Move to >30m elevation", "Within 1 hour of impact")
  const OceanMinorZones := CoastalZones("Beach areas within 5km", "Small vessels within 50km",
                                        "Move inland 1-2km", "Monitor warnings")
  const LandMajorZones := RadiusZones("100 km radius", "100-300 km radius", "300-500 km radius")
  const LandModerateZones := RadiusZones("50 km radius", "50-150 km radius", "150-300 km radius")
  const LandMinorZones := RadiusZones("20 km radius", "20-50 km radius", "50-100 km radius")

  function EvacuationZonesImproved(energyMt: real, isOcean: bool): (z: EvacuationZones)
    ensures z.CoastalZones? <==> isOcean
    ensures isOcean && energyMt > 100.0 ==> z == OceanMajorZones
    ensures isOcean && 10.0 < energyMt <= 100.0 ==> z == OceanModerateZones
    ensures isOcean && energyMt <= 10.0 ==> z == OceanMinorZones
    ensures !isOcean && energyMt > 100.0 ==> z == LandMajorZones
    ensures !isOcean && 10.0 < energyMt <= 100.0 ==> z == LandModerateZones
    ensures !isOcean && energyMt <= 10.0 ==> z == LandMinorZones
    ensures z.CoastalZones? ==> (z.evacuationTime == "Immediate - before impact" <==> energyMt > 100.0)
    ensures z.CoastalZones? ==> (z.evacuationTime == "Monitor warnings" <==> energyMt <= 10.0)
    ensures z.RadiusZones? ==> (z.immediateEvacuation == "100 km radius" <==> energyMt > 100.0)
    ensures z.RadiusZones? ==> (z.immediateEvacuation == "20 km radius" <==> energyMt <= 10.0)
  {
    if isOcean then
      if energyMt > 100.0 then OceanMajorZones
      else if energyMt > 10.0 then OceanModerateZones
      else OceanMinorZones
    else if energyMt > 100.0 then LandMajorZones
    else if energyMt > 10.0 then LandModerateZones
    else LandMinorZones
  }

  /** Responses keyed by risk level; any other level gets the default. */
  const ExtremeResponse: seq<string> := [
    "🚨 IMMEDIATE GLOBAL ALERT - Evacuation required",
    "🌍 International cooperation essential",
    "📡 Continuous monitoring and trajectory updates",
    "🏥 Activate emergency medical response worldwide"]

  const VeryHighResponse: seq<string> := [
    "⚠️ High-priority alert to affected regions",
    "🏗️ Reinforce critical infrastructure",
    "📊 Real-time impact assessment",
    "🔍 Enhanced observation protocols"]

  const HighResponse: seq<string> := [
    "🔶 Regional alert system activation",
    "🏠 Review evacuation plans",
    "📱 Public awareness campaign",
    "🔬 Scientific monitoring intensified"]

  const DefaultResponse: seq<string> := [
    "✅ Standard monitoring procedures",
    "📝 Regular risk assessment updates"]

  /** `generate_user_emergency_response`: energy and site are not consulted. */
  function UserEmergencyResponse(riskLevel: string): (r: seq<string>)
    ensures riskLevel == "EXTREME" ==> r == ExtremeResponse
    ensures riskLevel == "VERY_HIGH" ==> r == VeryHighResponse
    ensures riskLevel == "HIGH" ==> r == HighResponse
    ensures riskLevel !in {"EXTREME", "VERY_HIGH", "HIGH"} ==> r == DefaultResponse
    ensures |r| == if riskLevel in {"EXTREME", "VERY_HIGH", "HIGH"} then 4 else 2
  {
    if riskLevel == "EXTREME" then ExtremeResponse
    else if riskLevel == "VERY_HIGH" then VeryHighResponse
    else if riskLevel == "HIGH" then HighResponse
    else DefaultResponse
  }

  datatype UserRisk = UserRisk(
    riskScore: real, riskLevel: string, sizeRisk: real, velocityRisk: real, energyRisk: real,
    locationRisk: string, emergencyResponse: seq<string>)

  /** The weighted score before the ocean adjustment. */
  function WeightedScore(diameterKm: real, velocityKmS: real, energyMt: real): (s: real)
    ensures diameterKm >= 0.0 && velocityKmS >= 0.0 && energyMt >= 0.0 ==> 0.0 <= s
    ensures s <= 100.0
  {
    0.3 * MinReal(100.0, diameterKm * 10.0) + 0.2 * MinReal(100.0, velocityKmS * 1.5)
      + 0.5 * MinReal(100.0, energyMt / 10.0)
  }

  /** The level bands of the score. */
  function ScoreLevel(score: real): (level: string)
    ensures level in {"EXTREME", "VERY_HIGH", "HIGH", "MEDIUM", "LOW"}
    ensures level == "EXTREME" <==> score >= 80.0
    ensures level == "VERY_HIGH" <==> 60.0 <= score < 80.0
    ensures level == "HIGH" <==> 40.0 <= score < 60.0
    ensures level == "MEDIUM" <==> 20.0 <= score < 40.0
    ensures level == "LOW" <==> score < 20.0
  {
    if score >= 80.0 then "EXTREME"
    else if score >= 60.0 then "VERY_HIGH"
    else if score >= 40.0 then "HIGH"
    else if score >= 20.0 then "MEDIUM"
    else "LOW"
  }

  /** `calculate_user_risk_assessment`: a score out of 100, raised by a fifth
      (still capped at 100) for an ocean impact above 10 Mt. */
  function UserRiskAssessment(diameterKm: real, velocityKmS: real, energyMt: real, lat: real, lng: real): (r: UserRisk)
    ensures r.riskScore <= 100.0
    ensures diameterKm >= 0.0 && velocityKmS >= 0.0 && energyMt >= 0.0 ==> 0.0 <= r.riskScore
    ensures WeightedScore(diameterKm, velocityKmS, energyMt) >= 0.0 ==>
      r.riskScore >= WeightedScore(diameterKm, velocityKmS, energyMt)
    ensures !(Location.IsOceanLocation(lat, lng) && energyMt > 10.0) ==> r.riskScore == WeightedScore(diameterKm, velocityKmS, energyMt)
    ensures r.riskLevel == ScoreLevel(r.riskScore)
    ensures r.locationRisk == (if Location.IsOceanLocation(lat, lng) && energyMt > 10.0 then "HIGH" else "MEDIUM")
    ensures Location.IsOceanLocation(lat, lng) && energyMt > 10.0 ==>
      r.riskScore == MinReal(100.0, 1.2 * WeightedScore(diameterKm, velocityKmS, energyMt))
    ensures r.sizeRisk == MinReal(100.0, diameterKm * 10.0)
    ensures r.velocityRisk == MinReal(100.0, velocityKmS * 1.5)
    ensures r.energyRisk == MinReal(100.0, energyMt / 10.0)
    ensures r.sizeRisk <= 100.0 && r.velocityRisk <= 100.0 && r.energyRisk <= 100.0
    ensures r.emergencyResponse == UserEmergencyResponse(r.riskLevel)
  {
    var size := MinReal(100.0, diameterKm * 10.0);
    var velocity := MinReal(100.0, velocityKmS * 1.5);
    var energy := MinReal(100.0, energyMt / 10.0);
    var total := size * 0.3 + velocity * 0.2 + energy * 0.5;
    var oceanBoost := Location.IsOceanLocation(lat, lng) && energyMt > 10.0;
    var score := if oceanBoost then MinReal(100.0, total * 1.2) else total;
    var level := ScoreLevel(score);
    UserRisk(score, level, size, velocity, energy, if oceanBoost then "HIGH" else "MEDIUM", UserEmergencyResponse(level))
  }

  /** Of two equal asteroids, the one striking the ocean never scores lower. */
  lemma OceanNeverLowersScore(diameterKm: real, velocityKmS: real, energyMt: real, lat: real, lng: real, lat2: real, lng2: real)
    requires diameterKm >= 0.0 && velocityKmS >= 0.0 && energyMt >= 0.0
    requires Location.IsOceanLocation(lat, lng) && !Location.IsOceanLocation(lat2, lng2)
    ensures UserRiskAssessment(diameterKm, velocityKmS, energyMt, lat, lng).riskScore
         >= UserRiskAssessment(diameterKm, velocityKmS, energyMt, lat2, lng2).riskScore
  {
  }

  /** At sea above 10 Mt a score strictly between 0 and 100 is raised, not kept. */
  lemma OceanBoostRaises(diameterKm: real, velocityKmS: real, energyMt: real, lat: real, lng: real)
    requires Location.IsOceanLocation(lat, lng) && energyMt > 10.0
    requires 0.0 < WeightedScore(diameterKm, velocityKmS, energyMt) < 100.0
    ensures UserRiskAssessment(diameterKm, velocityKmS, energyMt, lat, lng).riskScore
          > WeightedScore(diameterKm, velocityKmS, energyMt)
  {
  }

  /** A 5 km body at 20 km/s carrying 580 Mt into the Atlantic at (0, -30):
      weighted 50, boosted to 60, so VERY_HIGH rather than HIGH. */
  lemma OceanBoostExample()
    ensures UserRiskAssessment(5.0, 20.0, 580.0, 0.0, -30.0).riskScore == 60.0
    ensures UserRiskAssessment(5.0, 20.0, 580.0, 0.0, -30.0).riskLevel == "VERY_HIGH"
  {
    assert Location.IsOceanLocation(0.0, -30.0);
    assert WeightedScore(5.0, 20.0, 580.0) == 50.0;
  }

  /** The score bands are ordered: a higher score never gets a lower level. */
  lemma ScoreLevelMonotone(s1: real, s2: real)
    requires s1 <= s2
    ensures LevelRank(ScoreLevel(s1)) <= LevelRank(ScoreLevel(s2))
  {
  }

  function LevelRank(level: string): nat {
    if level == "EXTREME" then 4 else if level == "VERY_HIGH" then 3
    else if level == "HIGH" then 2 else if level == "MEDIUM" then 1 else 0
  }

  datatype Feasibility = Feasibility(feasibility: string, timeframe: string, costEstimate: string, successProbability: string)

  const FeasibilityBands: seq<Feasibility> := [
    Feasibility("VERY_HIGH", "1-3 years", "Low ($100M - $500M)", "85-95%"),
    Feasibility("HIGH", "3-7 years", "Medium ($500M - $2B)", "70-85%"),
    Feasibility("MEDIUM", "7-15 years", "High ($2B - $10B)", "50-70%"),
    Feasibility("LOW", "15-25 years", "Very High ($10B+)", "30-50%")]

  /** The size band of a diameter in kilometres: under 0.1, 0.5, 2.0, or beyond. */
  function SizeBand(diameterKm: real): (b: nat)
    ensures b < 4
    ensures b == 0 <==> diameterKm < 0.1
    ensures b == 1 <==> 0.1 <= diameterKm < 0.5
    ensures b == 2 <==> 0.5 <= diameterKm < 2.0
    ensures b == 3 <==> diameterKm >= 2.0
  {
    if diameterKm < 0.1 then 0 else if diameterKm < 0.5 then 1 else if diameterKm < 2.0 then 2 else 3
  }

  /** `assess_mission_feasibility`: the energy is not consulted. */
  function AssessMissionFeasibility(diameterKm: real, energyMt: real): (f: Feasibility)
    ensures f in FeasibilityBands
    ensures f.feasibility == "VERY_HIGH" <==> diameterKm < 0.1
    ensures f.feasibility == "HIGH" <==> 0.1 <= diameterKm < 0.5
    ensures f.feasibility == "MEDIUM" <==> 0.5 <= diameterKm < 2.0
    ensures f.feasibility == "LOW" <==> diameterKm >= 2.0
    ensures f == FeasibilityBands[SizeBand(diameterKm)]
  {
    if diameterKm < 0.1 then FeasibilityBands[0]
    else if diameterKm < 0.5 then FeasibilityBands[1]
    else if diameterKm < 2.0 then FeasibilityBands[2]
    else FeasibilityBands[3]
  }

  /** A larger object never makes the mission more feasible. */
  lemma FeasibilityMonotone(d1: real, d2: real, e1: real, e2: real)
    requires d1 <= d2
    ensures SizeBand(d1) <= SizeBand(d2)
    ensures AssessMissionFeasibility(d1, e1).feasibility == "LOW" ==> AssessMissionFeasibility(d2, e2).feasibility == "LOW"
  {
  }
}

=== FILE: Seismic.dfy ===
/** `USGSAnalyzer`: the mapping of an earthquake feed to quake records (the
    first twenty features, in feed order) and the seismic risk computed from
    those records and the current time. The HTTP request is outside the
    model: its outcome is an input, and so is the clock. */
module Seismic {
  import opened Common

  /** The properties of a feed feature that the analyzer reads. */
  datatype Properties = Properties(mag: real, place: string, time: int, tsunami: Option<int>, sig: Option<int>)

  /** A feed feature; `None` properties stand for a feature without them. */
  datatype Feature = Feature(properties: Option<Properties>, coordinates: seq<real>)

  /** The outcome of the request: a failure (network error, bad JSON), or a
      JSON body whose `features` key may be absent. */
  datatype FeedReply = RequestFailed | Body(features: Option<seq<Feature>>)

  datatype Quake = Quake(
    magnitude: real, place: string, time: int, latitude: real, longitude: real, depthKm: real,
    tsunamiWarning: int, significance: int)

  /** A feature the record mapping can read without raising. */
  predicate Readable(f: Feature) {
    f.properties.Some? && |f.coordinates| >= 3
  }

  /** The record of one readable feature: coordinates are (longitude,
      latitude, depth), and absent tsunami/significance flags read as 0. */
  function ToQuake(f: Feature): (q: Quake)
    requires Readable(f)
    ensures q.latitude == f.coordinates[1] && q.longitude == f.coordinates[0] && q.depthKm == f.coordinates[2]
    ensures q.magnitude == f.properties.value.mag && q.time == f.properties.value.time
    ensures q.place == f.properties.value.place
    ensures f.properties.value.tsunami.Some? ==> q.tsunamiWarning == f.properties.value.tsunami.value
    ensures f.properties.value.tsunami.None? ==> q.tsunamiWarning == 0
    ensures f.properties.value.sig.Some? ==> q.significance == f.properties.value.sig.value
    ensures f.properties.value.sig.None? ==> q.significance == 0
  {
    var p := f.properties.value;
    Quake(p.mag, p.place, p.time, f.coordinates[1], f.coordinates[0], f.coordinates[2],
          match p.tsunami case Some(t) => t case None => 0,
          match p.sig case Some(s) => s case None => 0)
  }

  /** The features taken from a reply: at most the first twenty. */
  function Taken(reply: FeedReply): (fs: seq<Feature>)
    ensures |fs| <= 20
    ensures reply.Body? && reply.features.Some? ==>
      |fs| <= |reply.features.value| && fs == reply.features.value[..|fs|]
    ensures reply.Body? && reply.features.Some? && |reply.features.value| <= 20 ==> fs == reply.features.value
    ensures reply.Body? && reply.features.Some? && |reply.features.value| > 20 ==> |fs| == 20
    ensures !(reply.Body? && reply.features.Some?) ==> fs == []
  {
    match reply
    case RequestFailed => []
    case Body(None) => []
    case Body(Some(features)) => features[..MinInt(20, |features|)]
  }

  /** `get_earthquakes_near_location`: one record per taken feature, in feed
      order; any failure, including an unreadable feature, gives no records. */
  method GetEarthquakesNearLocation(reply: FeedReply) returns (quakes: seq<Quake>)
    ensures |quakes| <= 20
    ensures reply.RequestFailed? ==> quakes == []
    ensures (exists k :: 0 <= k < |Taken(reply)| && !Readable(Taken(reply)[k])) ==> quakes == []
    ensures (forall k :: 0 <= k < |Taken(reply)| ==> Readable(Taken(reply)[k])) ==>
      (|quakes| == |Taken(reply)| && forall k :: 0 <= k < |quakes| ==> quakes[k] == ToQuake(Taken(reply)[k]))
  {
    if reply.RequestFailed? {
      return [];
    }
    var fs := Taken(reply);
    quakes := [];
    for i := 0 to |fs|
      invariant |quakes| == i
      invariant forall k :: 0 <= k < i ==> Readable(fs[k]) && quakes[k] == ToQuake(fs[k])
    {
      if !Readable(fs[i]) {
        return [];
      }
      quakes := quakes + [ToQuake(fs[i])];
    }
  }

  /** `max(magnitudes)`. */
  function MaxMagnitude(quakes: seq<Quake>): (m: real)
    requires |quakes| > 0
    ensures forall k :: 0 <= k < |quakes| ==> quakes[k].magnitude <= m
    ensures exists k :: 0 <= k < |quakes| && quakes[k].magnitude == m
  {
    if |quakes| == 1 then quakes[0].magnitude
    else
      var rest := MaxMagnitude(quakes[1..]);
      assert forall k :: 1 <= k < |quakes| ==> quakes[k] == quakes[1..][k - 1];
      MaxReal(quakes[0].magnitude, rest)
  }

  /** `sum(magnitudes)`. */
  function SumMagnitudes(quakes: seq<Quake>): real {
    if quakes == [] then 0.0 else quakes[0].magnitude + SumMagnitudes(quakes[1..])
  }

  /** The sum is at most the count times any upper bound of the magnitudes. */
  lemma {:induction false} SumAtMostCountTimesBound(quakes: seq<Quake>, bound: real)
    requires forall k :: 0 <= k < |quakes| ==> quakes[k].magnitude <= bound
    ensures SumMagnitudes(quakes) <= |quakes| as real * bound
  {
    if quakes != [] {
      assert forall k :: 0 <= k < |quakes| - 1 ==> quakes[1..][k] == quakes[k + 1];
      SumAtMostCountTimesBound(quakes[1..], bound);
    }
  }

  /** The average magnitude never exceeds the maximum. */
  lemma AverageAtMostMax(quakes: seq<Quake>)
    requires |quakes| > 0
    ensures SumMagnitudes(quakes) / |quakes| as real <= MaxMagnitude(quakes)
  {
    AverageAtMostBound(quakes, MaxMagnitude(quakes));
  }

  /** The average magnitude is at most any upper bound of the magnitudes. */
  lemma AverageAtMostBound(quakes: seq<Quake>, bound: real)
    requires |quakes| > 0
    requires forall k :: 0 <= k < |quakes| ==> quakes[k].magnitude <= bound
    ensures SumMagnitudes(quakes) / |quakes| as real <= bound
  {
    SumAtMostCountTimesBound(quakes, bound);
    DivideBound(SumMagnitudes(quakes), |quakes| as real, bound);
  }

  lemma DivideBound(s: real, n: real, m: real)
    requires n > 0.0 && s <= n * m
    ensures s / n <= m
  {
    assert s / n * n == s;
  }

  /** Three years of 365 days, in milliseconds. */
  const ThreeYearsMs: real := 94608000000.0

  /** The quakes later than the cutoff. */
  function CountAfter(quakes: seq<Quake>, cutoff: real): (n: nat)
    ensures n <= |quakes|
    ensures n == |quakes| <==> forall k :: 0 <= k < |quakes| ==> quakes[k].time as real > cutoff
    ensures n == 0 <==> forall k :: 0 <= k < |quakes| ==> quakes[k].time as real <= cutoff
  {
    if quakes == [] then 0
    else
      var rest := CountAfter(quakes[1..], cutoff);
      assert forall k :: 1 <= k < |quakes| ==> quakes[k] == quakes[1..][k - 1];
      (if quakes[0].time as real > cutoff then 1 else 0) + rest
  }

  /** An earlier cutoff never counts fewer quakes. */
  lemma {:induction false} CountAfterMonotone(quakes: seq<Quake>, c1: real, c2: real)
    requires c1 <= c2
    ensures CountAfter(quakes, c2) <= CountAfter(quakes, c1)
  {
    if quakes != [] {
      CountAfterMonotone(quakes[1..], c1, c2);
    }
  }

  /** The risk cascade on the largest magnitude and the recent count. */
  function SeismicLevel(maxMag: real, recent: int): (level: string)
    ensures level in {"very_high", "high", "medium", "low"}
    ensures level == "very_high" <==> maxMag > 7.0 || recent > 15
    ensures level == "high" <==> !(maxMag > 7.0 || recent > 15) && (maxMag > 6.5 || recent > 8)
    ensures level == "medium" <==> (!(maxMag > 7.0 || recent > 15) && !(maxMag > 6.5 || recent > 8)
      && (maxMag > 5.5 || recent > 3))
    ensures level == "low" <==> maxMag <= 5.5 && recent <= 3
  {
    if maxMag > 7.0 || recent > 15 then "very_high"
    else if maxMag > 6.5 || recent > 8 then "high"
    else if maxMag > 5.5 || recent > 3 then "medium"
    else "low"
  }

  function LevelRank(level: string): nat {
    if level == "very_high" then 3 else if level == "high" then 2 else if level == "medium" then 1 else 0
  }

  /** A stronger or more recent history never lowers the level. */
  lemma SeismicLevelMonotone(m1: real, m2: real, r1: int, r2: int)
    requires m1 <= m2 && r1 <= r2
    ensures LevelRank(SeismicLevel(m1, r1)) <= LevelRank(SeismicLevel(m2, r2))
  {
  }

  const HazardDescriptions: map<string, string> := map[
    "very_high" := "Active fault zone - history of destructive earthquakes",
    "high" := "Frequent seismic activity - potential for strong earthquakes",
    "medium" := "Moderate seismic activity - potential for medium tremors",
    "low" := "Stable area - rare seismic activity"]

  const Recommendations: map<string, string> := map[
    "very_high" := "🚨 Avoid construction - emergency evacuation plans - reinforce all buildings",
    "high" := "⚠️ Earthquake-resistant construction - early warning systems - emergency training",
    "medium" := "🔍 Monitor activity - risk assessment - preventive measures",
    "low" := "✅ Standard preventive measures - routine monitoring"]

  /** `get_hazard_description`. */
  function HazardDescription(level: string): (d: string)
    ensures level in HazardDescriptions ==> d == HazardDescriptions[level]
    ensures level !in HazardDescriptions ==> d == "Unknown"
  {
    if level in HazardDescriptions then HazardDescriptions[level] else "Unknown"
  }

  /** `get_seismic_recommendation`. */
  function SeismicRecommendation(level: string): (r: string)
    ensures level in Recommendations ==> r == Recommendations[level]
    ensures level !in Recommendations ==> r == "Needs additional assessment"
  {
    if level in Recommendations then Recommendations[level] else "Needs additional assessment"
  }

  /** The report; `Stable` stands for the fixed report of an empty list. */
  datatype SeismicRisk =
    | Stable(riskLevel: string, earthquakesCount: nat, maxMagnitude: real, confidence: string, message: string)
    | Assessed(riskLevel: string, earthquakesCount: nat, maxMagnitude: real, averageMagnitude: real,
               recentActivity: nat, seismicHazard: string, recommendation: string)

  const StableMessage := "Seismically stable area"

  /** `calculate_seismic_risk` on the fetched records and the current time in
      milliseconds; every level it produces has its own text in both tables. */
  function CalculateSeismicRisk(quakes: seq<Quake>, nowMs: real): (r: SeismicRisk)
    ensures quakes == [] <==> r.Stable?
    ensures r.Stable? ==> r.riskLevel == "low" && r.earthquakesCount == 0 && r.maxMagnitude == 0.0
    ensures r.Stable? ==> r.confidence == "high" && r.message == StableMessage
    ensures r.Assessed? ==> r.earthquakesCount == |quakes| && r.recentActivity <= |quakes|
    ensures r.Assessed? ==> r.maxMagnitude == MaxMagnitude(quakes)
    ensures r.Assessed? ==> r.averageMagnitude == SumMagnitudes(quakes) / |quakes| as real
    ensures r.Assessed? ==> r.recentActivity == CountAfter(quakes, nowMs - ThreeYearsMs)
    ensures r.Assessed? ==> r.riskLevel == SeismicLevel(r.maxMagnitude, r.recentActivity)
    ensures r.Assessed? ==> r.riskLevel in HazardDescriptions && r.seismicHazard == HazardDescriptions[r.riskLevel]
    ensures r.Assessed? ==> r.riskLevel in Recommendations && r.recommendation == Recommendations[r.riskLevel]
  {
    if quakes == [] then Stable("low", 0, 0.0, "high", StableMessage)
    else
      var maxMag := MaxMagnitude(quakes);
      var recent := CountAfter(quakes, nowMs - ThreeYearsMs);
      var level := SeismicLevel(maxMag, recent);
      Assessed(level, |quakes|, maxMag, SumMagnitudes(quakes) / |quakes| as real, recent,
               HazardDescription(level), SeismicRecommendation(level))
  }

  /** The average the report carries lies below its maximum. */
  lemma ReportAverageAtMostMax(quakes: seq<Quake>, nowMs: real)
    requires quakes != []
    ensures CalculateSeismicRisk(quakes, nowMs).averageMagnitude <= CalculateSeismicRisk(quakes, nowMs).maxMagnitude
  {
    AverageAtMostMax(quakes);
  }

  /** Any quake stronger than 7 makes the area "very_high" whatever the time. */
  lemma StrongQuakeIsVeryHigh(quakes: seq<Quake>, nowMs: real, k: int)
    requires 0 <= k < |quakes| && quakes[k].magnitude > 7.0
    ensures CalculateSeismicRisk(quakes, nowMs).riskLevel == "very_high"
  {
  }
}

=== FILE: Sorting.dfy ===
/** Python's `list.sort(key=...)` as a value: a stable insertion sort by a
    real-valued key. `reverse=True` keeps ties in their original order too,
    so a descending sort is the ascending sort on the negated key. */
module Sorting {

  ghost predicate SortedBy<T>(s: seq<T>, key: T -> real) {
    forall i, j :: 0 <= i < j < |s| ==> key(s[i]) <= key(s[j])
  }

  /** Puts `x` after every trailing element whose key is at most its own,
      so that it lands behind all elements of equal key. */
  function Insert<T>(x: T, s: seq<T>, key: T -> real): (r: seq<T>)
    ensures multiset(r) == multiset(s) + multiset{x}
  {
    if s == [] then [x]
    else if key(s[|s| - 1]) <= key(x) then s + [x]
    else
      assert s == s[..|s| - 1] + [s[|s| - 1]];
      Insert(x, s[..|s| - 1], key) + [s[|s| - 1]]
  }

  /** Sorts ascending by `key`, keeping equal keys in input order. */
  function SortBy<T>(s: seq<T>, key: T -> real): (r: seq<T>)
    ensures multiset(r) == multiset(s)
  {
    if s == [] then []
    else
      assert s == s[..|s| - 1] + [s[|s| - 1]];
      Insert(s[|s| - 1], SortBy(s[..|s| - 1], key), key)
  }

  /** `sort(key=key, reverse=True)`. */
  function SortByDescending<T>(s: seq<T>, key: T -> real): (r: seq<T>)
    ensures multiset(r) == multiset(s)
  {
    SortBy(s, x => -key(x))
  }

  lemma SortedPrefix<T>(s: seq<T>, n: nat, key: T -> real)
    requires SortedBy(s, key) && n <= |s|
    ensures SortedBy(s[..n], key)
  {
    var p := s[..n];
    forall i, j | 0 <= i < j < |p| ensures key(p[i]) <= key(p[j]) {
      assert p[i] == s[i] && p[j] == s[j];
    }
  }

  /** Inserting into a list bounded by `b` an element bounded by `b` keeps the bound. */
  lemma InsertBounded<T>(x: T, p: seq<T>, key: T -> real, b: real)
    requires key(x) <= b
    requires forall k :: 0 <= k < |p| ==> key(p[k]) <= b
    ensures forall k :: 0 <= k < |Insert(x, p, key)| ==> key(Insert(x, p, key)[k]) <= b
  {
    var q := Insert(x, p, key);
    forall k | 0 <= k < |q| ensures key(q[k]) <= b {
      var e := q[k];
      assert e in multiset(q);
      if e != x {
        assert e in multiset(p);
        var i :| 0 <= i < |p| && p[i] == e;
      }
    }
  }

  lemma SortedSnoc<T>(q: seq<T>, last: T, key: T -> real)
    requires SortedBy(q, key)
    requires forall k :: 0 <= k < |q| ==> key(q[k]) <= key(last)
    ensures SortedBy(q + [last], key)
  {
    var r := q + [last];
    forall i, j | 0 <= i < j < |r| ensures key(r[i]) <= key(r[j]) {
      assert r[i] == q[i];
      if j < |q| {
        assert r[j] == q[j];
      }
    }
  }

  lemma {:induction false} InsertSorted<T>(x: T, s: seq<T>, key: T -> real)
    requires SortedBy(s, key)
    ensures SortedBy(Insert(x, s, key), key)
  {
    if s != [] && key(x) < key(s[|s| - 1]) {
      var p, last := s[..|s| - 1], s[|s| - 1];
      SortedPrefix(s, |s| - 1, key);
      InsertSorted(x, p, key);
      assert forall k :: 0 <= k < |p| ==> key(p[k]) <= key(last) by {
        forall k | 0 <= k < |p| ensures key(p[k]) <= key(last) {
          assert p[k] == s[k];
        }
      }
      InsertBounded(x, p, key, key(last));
      SortedSnoc(Insert(x, p, key), last, key);
    }
  }

  /** The result is ordered by the key. */
  lemma {:induction false} SortBySorted<T>(s: seq<T>, key: T -> real)
    ensures SortedBy(SortBy(s, key), key)
  {
    if s != [] {
      SortBySorted(s[..|s| - 1], key);
      InsertSorted(s[|s| - 1], SortBy(s[..|s| - 1], key), key);
    }
  }

  /** A list already ordered by the key is left exactly as it is. */
  lemma {:induction false} SortByKeepsSorted<T>(s: seq<T>, key: T -> real)
    requires SortedBy(s, key)
    ensures SortBy(s, key) == s
  {
    if s != [] {
      var p, x := s[..|s| - 1], s[|s| - 1];
      assert s == p + [x];
      SortedPrefix(s, |s| - 1, key);
      SortByKeepsSorted(p, key);
      assert SortBy(s, key) == Insert(x, SortBy(p, key), key) == Insert(x, p, key);
      if p != [] {
        assert key(p[|p| - 1]) <= key(x) by {
          assert p[|p| - 1] == s[|s| - 2];
        }
        assert Insert(x, p, key) == p + [x];
      }
    }
  }

  /** When every key is the same, both sorts keep the input order. */
  lemma EqualKeysKeepOrder<T>(s: seq<T>, key: T -> real)
    requires forall i, j :: 0 <= i < |s| && 0 <= j < |s| ==> key(s[i]) == key(s[j])
    ensures SortBy(s, key) == s
    ensures SortByDescending(s, key) == s
  {
    SortByKeepsSorted(s, key);
    var neg := x => -key(x);
    assert SortedBy(s, neg);
    SortByKeepsSorted(s, neg);
  }
}

=== FILE: SpectralTypes.dfy ===
/** `AsteroidTypeClassifier`: the spectral-type catalogue and the
    identifier-seeded classification. The draw `random.randint(1, hi)` made
    right after `random.seed(id)` is the parameter `draw(id, hi)`: a fixed
    function of the seed and the bound, which is what makes the
    classification reproducible. */
module SpectralTypes {

  datatype TypeInfo = TypeInfo(
    name: string, description: string, albedoMin: real, albedoMax: real,
    imageUrl: string, characteristics: seq<string>, composition: string)

  const UnknownCode := "UNKNOWN"

  /** The 17-entry catalogue, keyed by type code. */
  const AsteroidTypes: map<string, TypeInfo> := map[
    "C" := TypeInfo(
      "C-type (Carbonaceous)",
      "Dark, carbon-rich asteroids. Most common in outer belt.",
      0.03, 0.1, "/static/images/asteroids/c-type.jpg",
      ["Very dark", "Carbon-rich", "Primitive composition"],
      "Carbon, water ice, organic compounds"),
    "S" := TypeInfo(
      "S-type (Silicaceous)",
      "Stony, silicate-rich asteroids. Common in inner belt.",
      0.1, 0.22, "/static/images/asteroids/s-type.jpg",
      ["Moderate brightness", "Silicate minerals", "Rocky"],
      "Iron, magnesium silicates"),
    "M" := TypeInfo(
      "M-type (Metallic)",
      "Metal-rich asteroids, possibly exposed cores.",
      0.1, 0.18, "/static/images/asteroids/m-type.jpg",
      ["Metal-rich", "High density", "Nickel-iron"],
      "Iron, nickel, cobalt"),
    "V" := TypeInfo(
      "V-type (Vesta-like)",
      "Basaltic composition, similar to asteroid Vesta.",
      0.3, 0.5, "/static/images/asteroids/v-type.jpg",
      ["Very bright", "Basaltic", "Differentiated"],
      "Basalt, pyroxene"),
    "B" := TypeInfo(
      "B-type",
      "Similar to C-type but slightly brighter.",
      0.04, 0.08, "/static/images/asteroids/b-type.jpg",
      ["Dark", "Primitive", "Carbon-bearing"],
      "Carbonaceous materials"),
    "Q" := TypeInfo(
      "Q-type",
      "Similar to ordinary chondrite meteorites.",
      0.15, 0.3, "/static/images/asteroids/q-type.jpg",
      ["Fresh surface", "Unweathered", "Stony"],
      "Olivine, pyroxene, metal"),
    "K" := TypeInfo(
      "K-type",
      "Intermediate between C and S types.",
      0.08, 0.15, "/static/images/asteroids/k-type.jpg",
      ["Moderate reflectance", "Mixed composition"],
      "Mixed silicates and carbonaceous materials"),
    "D" := TypeInfo(
      "D-type",
      "Very dark, organic-rich asteroids.",
      0.02, 0.05, "/static/images/asteroids/d-type.jpg",
      ["Extremely dark", "Organic-rich"],
      "Organic compounds, water ice"),
    "P" := TypeInfo(
      "P-type",
      "Similar to D-type, very dark and red.",
      0.02, 0.06, "/static/images/asteroids/p-type.jpg",
      ["Very dark", "Reddish", "Primitive"],
      "Organic materials, silicates"),
    "R" := TypeInfo(
      "R-type",
      "Rich in olivine, relatively rare.",
      0.2, 0.4, "/static/images/asteroids/r-type.jpg",
      ["Olivine-rich", "Bright", "Uncommon"],
      "Olivine, pyroxene"),
    "T" := TypeInfo(
      "T-type",
      "Moderately red, similar to D and P types.",
      0.03, 0.07, "/static/images/asteroids/t-type.jpg",
      ["Dark", "Reddish", "Trojan asteroids"],
      "Organic materials"),
    "A" := TypeInfo(
      "A-type",
      "Olivine-dominated, very rare.",
      0.15, 0.3, "/static/images/asteroids/a-type.jpg",
      ["Olivine-rich", "Differentiated", "Extremely rare"],
      "Pure olivine"),
    "L" := TypeInfo(
      "L-type",
      "Similar to K-type, moderate albedo.",
      0.08, 0.18, "/static/images/asteroids/l-type.jpg",
      ["Moderate brightness", "Mixed composition"],
      "Mixed materials"),
    "F" := TypeInfo(
      "F-type",
      "Similar to B-type, carbon-rich.",
      0.03, 0.06, "/static/images/asteroids/f-type.jpg",
      ["Dark", "Carbonaceous"],
      "Carbon compounds"),
    "G" := TypeInfo(
      "G-type",
      "Similar to C-type with UV absorption.",
      0.05, 0.09, "/static/images/asteroids/g-type.jpg",
      ["Dark", "Carbonaceous", "UV absorption"],
      "Carbonaceous materials with organics"),
    "U" := TypeInfo(
      "U-type (Unclassified)",
      "Does not fit standard classifications.",
      0.0, 1.0, "/static/images/asteroids/u-type.jpg",
      ["Unusual spectrum", "Rare"],
      "Variable"),
    "UNKNOWN" := TypeInfo(
      "Unknown/Unclassified",
      "Spectral type not determined.",
      0.0, 1.0, "/static/images/asteroids/unknown.jpg",
      ["Classification pending", "Insufficient data"],
      "Unknown")
  ]

  /** (type code, weight) pairs in the order the buckets are laid out. */
  const TypeDistribution: seq<(string, nat)> := [
    ("S", 45), ("C", 30), ("M", 5), ("Q", 5),
    ("V", 3), ("B", 2), ("K", 2), ("D", 2),
    ("P", 2), ("R", 1), ("T", 1), ("A", 1), ("L", 1)
  ]

  function Sum(t: seq<(string, nat)>): nat {
    if t == [] then 0 else t[0].1 + Sum(t[1..])
  }

  function Codes(t: seq<(string, nat)>): set<string> {
    set i | 0 <= i < |t| :: t[i].0
  }

  /** The code whose cumulative-weight bucket holds `r`: the first entry
      whose running total reaches `r`, and "UNKNOWN" past the last one. */
  function Pick(t: seq<(string, nat)>, r: int): string {
    if t == [] then UnknownCode
    else if r <= t[0].1 then t[0].0
    else Pick(t[1..], r - t[0].1)
  }

  /** A randint-like draw: `draw(seed, hi)` lies in [1, hi]. */
  ghost predicate IsDraw(draw: (int, int) -> int) {
    forall seed, hi :: 1 <= hi ==> 1 <= draw(seed, hi) <= hi
  }

  /** The type code identifier `id` receives. */
  function SpectralCode(id: int, draw: (int, int) -> int): string {
    Pick(TypeDistribution, draw(id, Sum(TypeDistribution)))
  }

  lemma {:induction false} SumSnoc(t: seq<(string, nat)>, i: nat)
    requires i < |t|
    ensures Sum(t[..i + 1]) == Sum(t[..i]) + t[i].1
  {
    if i > 0 {
      assert t[..i + 1][1..] == t[1..][..i];
      assert t[..i][1..] == t[1..][..i - 1];
      SumSnoc(t[1..], i - 1);
    }
  }

  /** The walk of `classify_by_id` over a weight table with a running total:
      the first bucket whose total reaches the draw wins. */
  method WalkBuckets(t: seq<(string, nat)>, randVal: int) returns (code: string)
    ensures code == Pick(t, randVal)
  {
    var cumulative := 0;
    for i := 0 to |t|
      invariant cumulative == Sum(t[..i])
      invariant Pick(t, randVal) == Pick(t[i..], randVal - cumulative)
    {
      var (typeCode, weight) := t[i];
      SumSnoc(t, i);
      assert t[i..][1..] == t[i + 1..];
      cumulative := cumulative + weight;
      if randVal <= cumulative {
        return typeCode;
      }
    }
    return UnknownCode;
  }

  /** `classify_by_id`: one draw bounded by the total weight, then the walk. */
  method ClassifyById(id: int, draw: (int, int) -> int) returns (code: string)
    ensures code == SpectralCode(id, draw)
  {
    var total := Sum(TypeDistribution);
    var randVal := draw(id, total);
    code := WalkBuckets(TypeDistribution, randVal);
  }

  /** The weights add up to the draw's upper bound. */
  lemma TotalIsHundred()
    ensures Sum(TypeDistribution) == 100
  {
  }

  /** A draw inside [1, total] always lands in some bucket. */
  lemma {:induction false} PickCovers(t: seq<(string, nat)>, r: int)
    requires 1 <= r <= Sum(t)
    ensures Pick(t, r) in Codes(t)
  {
    if r > t[0].1 {
      PickCovers(t[1..], r - t[0].1);
      var k :| 0 <= k < |t[1..]| && t[1..][k].0 == Pick(t[1..], r - t[0].1);
      assert t[k + 1].0 == Pick(t, r);
    }
  }

  /** The bucket of `r` is entry `k` when the running totals before and
      through `k` straddle `r`. */
  lemma {:induction false} PickBucket(t: seq<(string, nat)>, r: int, k: nat)
    requires k < |t| && Sum(t[..k]) < r <= Sum(t[..k + 1])
    ensures Pick(t, r) == t[k].0
  {
    if k > 0 {
      assert t[..k + 1][1..] == t[1..][..k];
      assert t[..k][1..] == t[1..][..k - 1];
      PickBucket(t[1..], r - t[0].1, k - 1);
    }
  }

  /** The running totals of the distribution after each entry. */
  lemma PrefixSums()
    ensures Sum(TypeDistribution[..0]) == 0 && Sum(TypeDistribution[..1]) == 45
    ensures Sum(TypeDistribution[..2]) == 75 && Sum(TypeDistribution[..3]) == 80
    ensures Sum(TypeDistribution[..4]) == 85 && Sum(TypeDistribution[..5]) == 88
    ensures Sum(TypeDistribution[..6]) == 90 && Sum(TypeDistribution[..7]) == 92
    ensures Sum(TypeDistribution[..8]) == 94 && Sum(TypeDistribution[..9]) == 96
    ensures Sum(TypeDistribution[..10]) == 97 && Sum(TypeDistribution[..11]) == 98
    ensures Sum(TypeDistribution[..12]) == 99 && Sum(TypeDistribution[..13]) == 100
  {
    var t := TypeDistribution;
    assert t[..0] == [];
    SumSnoc(t, 0); SumSnoc(t, 1); SumSnoc(t, 2); SumSnoc(t, 3);
    SumSnoc(t, 4); SumSnoc(t, 5); SumSnoc(t, 6); SumSnoc(t, 7);
    SumSnoc(t, 8); SumSnoc(t, 9); SumSnoc(t, 10); SumSnoc(t, 11); SumSnoc(t, 12);
  }

  /** The cumulative buckets of the distribution, draw by draw. */
  lemma BucketTable(r: int)
    requires 1 <= r <= 100
    ensures r <= 45 ==> Pick(TypeDistribution, r) == "S"
    ensures 46 <= r <= 75 ==> Pick(TypeDistribution, r) == "C"
    ensures 76 <= r <= 80 ==> Pick(TypeDistribution, r) == "M"
    ensures 81 <= r <= 85 ==> Pick(TypeDistribution, r) == "Q"
    ensures 86 <= r <= 88 ==> Pick(TypeDistribution, r) == "V"
    ensures 89 <= r <= 90 ==> Pick(TypeDistribution, r) == "B"
    ensures 91 <= r <= 92 ==> Pick(TypeDistribution, r) == "K"
    ensures 93 <= r <= 94 ==> Pick(TypeDistribution, r) == "D"
    ensures 95 <= r <= 96 ==> Pick(TypeDistribution, r) == "P"
    ensures r == 97 ==> Pick(TypeDistribution, r) == "R"
    ensures r == 98 ==> Pick(TypeDistribution, r) == "T"
    ensures r == 99 ==> Pick(TypeDistribution, r) == "A"
    ensures r == 100 ==> Pick(TypeDistribution, r) == "L"
  {
    var t := TypeDistribution;
    PrefixSums();
    if r <= 45 { PickBucket(t, r, 0); }
    else if r <= 75 { PickBucket(t, r, 1); }
    else if r <= 80 { PickBucket(t, r, 2); }
    else if r <= 85 { PickBucket(t, r, 3); }
    else if r <= 88 { PickBucket(t, r, 4); }
    else if r <= 90 { PickBucket(t, r, 5); }
    else if r <= 92 { PickBucket(t, r, 6); }
    else if r <= 94 { PickBucket(t, r, 7); }
    else if r <= 96 { PickBucket(t, r, 8); }
    else if r == 97 { PickBucket(t, r, 9); }
    else if r == 98 { PickBucket(t, r, 10); }
    else if r == 99 { PickBucket(t, r, 11); }
    else { PickBucket(t, r, 12); }
  }

  /** The thirteen codes that carry a weight. */
  const WeightedCodes: set<string> := {"S", "C", "M", "Q", "V", "B", "K", "D", "P", "R", "T", "A", "L"}

  /** The fall-through "UNKNOWN" is unreachable for every possible draw: the
      result is a weighted code with a catalogue entry, and never one of the
      catalogued but unweighted codes F, G and U. */
  lemma DrawNeverUnknown(r: int)
    requires 1 <= r <= Sum(TypeDistribution)
    ensures Pick(TypeDistribution, r) in WeightedCodes
    ensures Pick(TypeDistribution, r) in AsteroidTypes
    ensures Pick(TypeDistribution, r) !in {UnknownCode, "F", "G", "U"}
  {
    TotalIsHundred();
    BucketTable(r);
  }

  /** Catalogue lookup, falling back to the "UNKNOWN" entry. */
  function GetTypeInfo(typeCode: string): (info: TypeInfo)
    ensures typeCode in AsteroidTypes ==> info == AsteroidTypes[typeCode]
    ensures typeCode !in AsteroidTypes ==> info == AsteroidTypes[UnknownCode]
  {
    if typeCode in AsteroidTypes then AsteroidTypes[typeCode] else AsteroidTypes[UnknownCode]
  }

  datatype Classification = Classification(
    typeCode: string, typeName: string, description: string, imageUrl: string,
    characteristics: seq<string>, composition: string, classificationMethod: string, confidence: string)

  /** `classify_asteroid`: the drawn code with its catalogue entry's fields. */
  method ClassifyAsteroid(id: int, draw: (int, int) -> int) returns (c: Classification)
    requires IsDraw(draw)
    ensures c.typeCode == SpectralCode(id, draw)
    ensures c.typeCode in WeightedCodes && c.typeCode in AsteroidTypes
    ensures var info := AsteroidTypes[c.typeCode];
      c.typeName == info.name && c.description == info.description && c.imageUrl == info.imageUrl
      && c.characteristics == info.characteristics && c.composition == info.composition
    ensures c.classificationMethod == "statistical" && c.confidence == "low"
  {
    var typeCode := ClassifyById(id, draw);
    TotalIsHundred();
    DrawNeverUnknown(draw(id, Sum(TypeDistribution)));
    var info := GetTypeInfo(typeCode);
    c := Classification(typeCode, info.name, info.description, info.imageUrl,
                        info.characteristics, info.composition, "statistical", "low");
  }
}

=== FILE: Threats.dfy ===
/** The threat helpers of the service: the threat list built from the stored
    asteroid records, the fixed table of impact sites, and the small scoring
    cascades of the helper section. */
module Threats {
  import opened Common
  import Sorting
  import Location
  import Coast

  /** One stored asteroid record. */
  datatype Asteroid = Asteroid(
    id: int, name: string, date: string, diameterAvg: real, velocityKmS: real,
    missDistanceKm: real, energyMt: real, isPotentiallyHazardous: bool)

  /** One entry of the threat list (distance in AU before rounding). */
  datatype Threat = Threat(
    id: int, name: string, date: string, diameterKm: real, velocityKmS: real,
    distanceKm: real, distanceAu: real, energyMt: real, threatLevel: string, isImmediateThreat: bool)

  /** A record is a threat when it passes within 0.05 AU. */
  predicate IsThreat(a: Asteroid) {
    DistanceAu(a.missDistanceKm) <= 0.05
  }

  /** The threat entry of a record, "CRITICAL" within 0.01 AU and "HIGH" otherwise. */
  function ToThreat(a: Asteroid): (t: Threat)
    ensures t.distanceAu == DistanceAu(a.missDistanceKm)
    ensures t.threatLevel == "CRITICAL" <==> t.distanceAu <= 0.01
    ensures t.threatLevel == "CRITICAL" || t.threatLevel == "HIGH"
    ensures t.isImmediateThreat <==> t.distanceAu <= 0.01
    ensures t.id == a.id && t.name == a.name && t.date == a.date && t.diameterKm == a.diameterAvg
    ensures t.velocityKmS == a.velocityKmS && t.distanceKm == a.missDistanceKm && t.energyMt == a.energyMt
  {
    var au := DistanceAu(a.missDistanceKm);
    Threat(a.id, a.name, a.date, a.diameterAvg, a.velocityKmS, a.missDistanceKm, au, a.energyMt,
           if au <= 0.01 then "CRITICAL" else "HIGH", au <= 0.01)
  }

  /** The threat entries of the records that are threats, in record order. */
  function Candidates(rows: seq<Asteroid>): seq<Threat> {
    if rows == [] then []
    else Candidates(rows[..|rows| - 1]) + (if IsThreat(rows[|rows| - 1]) then [ToThreat(rows[|rows| - 1])] else [])
  }

  /** Exactly the threatening records make it into the candidates. */
  lemma {:induction false} CandidatesExactly(rows: seq<Asteroid>)
    ensures forall t :: t in Candidates(rows) ==> exists j :: 0 <= j < |rows| && IsThreat(rows[j]) && t == ToThreat(rows[j])
    ensures forall j :: 0 <= j < |rows| && IsThreat(rows[j]) ==> ToThreat(rows[j]) in Candidates(rows)
  {
    if rows != [] {
      var init := rows[..|rows| - 1];
      CandidatesExactly(init);
      forall t | t in Candidates(rows)
        ensures exists j :: 0 <= j < |rows| && IsThreat(rows[j]) && t == ToThreat(rows[j])
      {
        if t in Candidates(init) {
          var j :| 0 <= j < |init| && IsThreat(init[j]) && t == ToThreat(init[j]);
          assert rows[j] == init[j];
        } else {
          assert IsThreat(rows[|rows| - 1]) && t == ToThreat(rows[|rows| - 1]);
        }
      }
      forall j | 0 <= j < |rows| && IsThreat(rows[j])
        ensures ToThreat(rows[j]) in Candidates(rows)
      {
        if j < |rows| - 1 {
          assert rows[j] == init[j];
        }
      }
    }
  }

  function DistanceKey(t: Threat): real { t.distanceAu }

  /** `validate_and_identify_threats` over the stored records: keep the records
      within 0.05 AU, then sort the list by distance, closest first. */
  method ValidateAndIdentifyThreats(rows: seq<Asteroid>) returns (threats: seq<Threat>)
    ensures threats == Sorting.SortBy(Candidates(rows), DistanceKey)
    ensures Sorting.SortedBy(threats, DistanceKey)
    ensures multiset(threats) == multiset(Candidates(rows))
    ensures forall t :: t in threats ==> exists j :: 0 <= j < |rows| && IsThreat(rows[j]) && t == ToThreat(rows[j])
    ensures forall j :: 0 <= j < |rows| && IsThreat(rows[j]) ==> ToThreat(rows[j]) in threats
    ensures forall t :: t in threats ==>
      (t.distanceAu <= 0.05 && (t.isImmediateThreat <==> t.distanceAu <= 0.01)
       && (t.threatLevel == "CRITICAL" <==> t.distanceAu <= 0.01) && (t.threatLevel == "CRITICAL" || t.threatLevel == "HIGH"))
  {
    if rows == [] {
      return [];
    }
    threats := [];
    for i := 0 to |rows|
      invariant threats == Candidates(rows[..i])
    {
      assert rows[..i + 1][..i] == rows[..i];
      var asteroid := rows[i];
      var distanceAu := asteroid.missDistanceKm / KmPerAu;
      if distanceAu <= 0.05 {
        var threatLevel := if distanceAu <= 0.01 then "CRITICAL" else "HIGH";
        threats := threats + [Threat(asteroid.id, asteroid.name, asteroid.date, asteroid.diameterAvg,
                                     asteroid.velocityKmS, asteroid.missDistanceKm, distanceAu,
                                     asteroid.energyMt, threatLevel, distanceAu <= 0.01)];
      }
    }
    assert rows[..|rows|] == rows;
    ghost var found := threats;
    CandidatesExactly(rows);
    threats := Sorting.SortBy(threats, DistanceKey);
    Sorting.SortBySorted(found, DistanceKey);
    forall t | t in threats ensures t in found {
      assert t in multiset(threats);
    }
    forall j | 0 <= j < |rows| && IsThreat(rows[j]) ensures ToThreat(rows[j]) in threats {
      assert ToThreat(rows[j]) in multiset(found);
    }
  }

  /** The fixed impact sites, indexed by identifier modulo seven: New York,
      Tokyo, Dubai, Sydney, the Atlantic, the Pacific and Paris. */
  const ImpactSites: seq<(real, real)> := [
    (40.7128, -74.0060), (35.6762, 139.6503), (25.0, 55.0), (-33.8688, 151.2093),
    (0.0, 0.0), (-45.0, -170.0), (48.8566, 2.3522)]

  /** `generate_impact_site`: Python's `%` by a positive modulus, like Dafny's,
      never yields a negative index, so every identifier has a site. */
  function GenerateImpactSite(asteroidId: int): (site: (real, real))
    ensures site in ImpactSites
    ensures site == ImpactSites[asteroidId % 7]
  {
    ImpactSites[asteroidId % |ImpactSites|]
  }

  /** Identifiers seven apart share a site. */
  lemma SitePeriodic(asteroidId: int)
    ensures GenerateImpactSite(asteroidId + 7) == GenerateImpactSite(asteroidId)
  {
    assert (asteroidId + 7) % 7 == asteroidId % 7;
  }

  /** Which sites the ocean geofence counts as sea: all but Tokyo and Sydney,
      which lie east of 120 degrees. */
  lemma SiteOceanOrLand(asteroidId: int)
    ensures var site := GenerateImpactSite(asteroidId);
      Location.IsOceanLocation(site.0, site.1) <==> asteroidId % 7 != 1 && asteroidId % 7 != 3
  {
    var k := asteroidId % 7;
    var site := GenerateImpactSite(asteroidId);
    if k == 1 || k == 3 {
      Location.FarEastIsLand(site.0, site.1);
    } else {
      assert Location.InBox(Location.OceanBoxes[if k == 2 then 2 else if k == 6 then 1 else if k == 4 then 1 else 0], site.0, site.1);
    }
  }

  /** The hand-written coast distances of the sites: 5 km at New York, 600 km
      in the Atlantic, 1200 km in the Pacific and 800 km everywhere else. */
  lemma SiteOceanDistance(asteroidId: int)
    ensures var site := GenerateImpactSite(asteroidId);
      Coast.RealOceanDistance(site.0, site.1)
        == (if asteroidId % 7 == 0 then 5 else if asteroidId % 7 == 4 then 600 else if asteroidId % 7 == 5 then 1200 else 800)
  {
  }

  /** `calculate_impact_radius` of the helper section: a step function of energy. */
  function ImpactRadius(energyMt: real): (km: int)
    ensures km in {5, 15, 30, 50}
    ensures km == 5 <==> energyMt < 1.0
    ensures km == 15 <==> 1.0 <= energyMt < 10.0
    ensures km == 30 <==> 10.0 <= energyMt < 100.0
    ensures km == 50 <==> energyMt >= 100.0
  {
    if energyMt < 1.0 then 5
    else if energyMt < 10.0 then 15
    else if energyMt < 100.0 then 30
    else 50
  }

  lemma ImpactRadiusMonotone(e1: real, e2: real)
    requires e1 <= e2
    ensures ImpactRadius(e1) <= ImpactRadius(e2)
  {
  }

  /** `classify_impact_energy`: the first threshold the energy stays under names its class. */
  function ClassifyImpactEnergy(energyMt: real): (c: string)
    ensures c == "Very Small" <==> energyMt < 0.01
    ensures c == "Small" <==> 0.01 <= energyMt < 1.0
    ensures c == "Medium" <==> 1.0 <= energyMt < 10.0
    ensures c == "Large" <==> 10.0 <= energyMt < 100.0
    ensures c == "Very Large" <==> 100.0 <= energyMt < 1000.0
    ensures c == "Extinction Level" <==> energyMt >= 1000.0
  {
    if energyMt < 0.01 then "Very Small"
    else if energyMt < 1.0 then "Small"
    else if energyMt < 10.0 then "Medium"
    else if energyMt < 100.0 then "Large"
    else if energyMt < 1000.0 then "Very Large"
    else "Extinction Level"
  }

  /** `calculate_risk_score` before rounding: weights 0.5, 0.3 and 0.2 on the
      closeness, size and energy factors, each capped at 1. */
  function RiskScore(a: Asteroid, distanceAu: real): (score: real)
    ensures distanceAu >= 0.0 ==> score <= 1.0
    ensures distanceAu >= 0.0 && a.diameterAvg >= 0.0 && a.energyMt >= 0.0 ==> 0.0 <= score
    ensures distanceAu >= 0.05 && a.diameterAvg <= 0.0 && a.energyMt <= 0.0 ==> score <= 0.0
    ensures distanceAu == 0.0 && a.diameterAvg >= 1000.0 && a.energyMt >= 10000.0 ==> score == 1.0
  {
    var distanceFactor := MaxReal(0.0, 1.0 - distanceAu / 0.05);
    var sizeFactor := MinReal(1.0, a.diameterAvg / 1000.0);
    var energyFactor := MinReal(1.0, a.energyMt / 10000.0);
    distanceFactor * 0.5 + sizeFactor * 0.3 + energyFactor * 0.2
  }

  /** A closer pass never lowers the score. */
  lemma RiskScoreMonotoneInDistance(a: Asteroid, d1: real, d2: real)
    requires d1 <= d2
    ensures RiskScore(a, d2) <= RiskScore(a, d1)
  {
  }

  const ImmediateActions: seq<string> := [
    "🚨 IMMEDIATE EVACUATION of predicted impact zone",
    "🏥 Activate emergency medical response",
    "📡 Continuous tracking and trajectory monitoring",
    "🌍 International cooperation required"]

  const CloseApproachActions: seq<string> := [
    "⚠️ Close monitoring of trajectory changes",
    "🏗️ Review building codes in risk areas",
    "📊 Update risk assessment every 6 hours",
    "🔍 Enhanced telescope observation"]

  const HighEnergyNote := "💥 High-energy impact - prepare for widespread effects"
  const LargeObjectNote := "🌋 Large object - potential global effects"
  const StandardMonitoring := "✅ Continue standard monitoring"

  /** `generate_emergency_recommendations`: the distance block, then the
      energy and size notes; the standard advice only when nothing applies. */
  method GenerateEmergencyRecommendations(a: Asteroid, distanceAu: real) returns (r: seq<string>)
    ensures distanceAu <= 0.01 ==> |r| >= 4 && r[..4] == ImmediateActions
    ensures 0.01 < distanceAu <= 0.05 ==> |r| >= 4 && r[..4] == CloseApproachActions
    ensures r == [StandardMonitoring] <==> distanceAu > 0.05 && a.energyMt <= 100.0 && a.diameterAvg <= 100.0
    ensures |r| == (if distanceAu <= 0.05 then 4 else 0) + (if a.energyMt > 100.0 then 1 else 0)
                   + (if a.diameterAvg > 100.0 then 1 else 0) + (if r == [StandardMonitoring] then 1 else 0)
    ensures a.energyMt > 100.0 ==> HighEnergyNote in r
    ensures a.diameterAvg > 100.0 ==> r[|r| - 1] == LargeObjectNote
  {
    var recommendations: seq<string> := [];
    if distanceAu <= 0.01 {
      recommendations := recommendations + ImmediateActions;
    } else if distanceAu <= 0.05 {
      recommendations := recommendations + CloseApproachActions;
    }
    if a.energyMt > 100.0 {
      recommendations := recommendations + [HighEnergyNote];
    }
    if a.diameterAvg > 100.0 {
      recommendations := recommendations + [LargeObjectNote];
    }
    r := if |recommendations| > 0 then recommendations else [StandardMonitoring];
  }
}
